=== FILE: README.md ===
# Citizen incident reporting: a Dafny model

The platform lets citizens report incidents such as potholes or fallen trees.
Administrators review the reports and hand them to the unit responsible, and
units hand them on or finish them. This project models the decision logic of
its two back ends as pure functions over immutable stores, and proves what
those functions promise.

- **The relational web application** (`app/app.py`, schema in `app/models.py`).
  A reporter files a case. A case carries a status (`draft`, `submitted`,
  `accepted`, `in_progress`, `completed`), a fake flag, an owner and an
  optional assigned unit. Next to the cases sit the media, feedback and
  notification tables.
  - Each state-changing handler is one transition function
    `(store, session, form, now) -> Result<Store>`: `case_new`, `case_edit`
    (edit or cancel), `case_feedback`, `admin_case_review` and
    `unit_reassign`.
  - `Failure` stands for the handler's flash-and-redirect, 404 or exception
    path. That path writes nothing.
  - `unit_dashboard` is modelled as a query over the store.
- **The Firestore application** (`app.py`). A document is a map from field
  names to JSON/Firestore values, and the `cases` collection is a map from
  document ids to documents. The model covers:
  - `format_case`, the normaliser the React front end reads;
  - the `serve` catch-all route;
  - the handlers that create and update documents: `create_report`,
    `update_status`, `create_case_legacy`, `assign_task` and `process_case`.

Clock readings, random hex digits and Firestore's generated document ids are
inputs. Nothing is read from a clock or a random source.

Modules, one file each:

| file | module | models |
|---|---|---|
| `common.dfy` | `Common` | `Option`, `Result` and the kinds of refusal |
| `text.dfy` | `Text` | decimal digits, zero padding, ASCII lower-casing, prefix/suffix tests, substring search |
| `clock.dfy` | `Clock` | valid `datetime` values, `strftime('%Y%m%d%H%M%S')` and `isoformat()` |
| `models.dfy` | `Models` | roles, statuses, and one record type per table with its defaults and unique constraints |
| `caseids.dfy` | `CaseIds` | the `case_id` format, its parser and its collision condition |
| `uploads.dfy` | `Uploads` | `allowed_file` and the image/video rule |
| `lifecycle.dfy` | `Lifecycle` | the request handlers of the web application |
| `lifecycle_props.dfy` | `LifecycleProperties` | the invariant over any sequence of requests, plus multi-request scenarios |
| `documents.dfy` | `Documents` | the Firestore normaliser, routing and handlers |

The lifecycle is proved against three independent definitions.

- `WellFormed` holds on every reachable store:
  - primary keys are positional;
  - `case_id` is unique;
  - a case in progress has a unit;
  - attached rows refer to existing cases.
- `Evolves` says what no request undoes:
  - the logs only grow;
  - a case keeps its identifier, owner and report time;
  - an assignment is never cleared.
- `Traceable` says that every notification goes to the owner of some case and
  names that case's identifier.

`RunKeeps` shows that all three hold after any sequence of requests. A
review request there runs the handler as written, which loses `mark_fake` and
`accept` (see Findings). `AdminCaseReviewKeeps` proves the same for the
handler with every change committed.

The code leaves several rules unenforced, and the model follows the code:

- there is no forward-only status graph. An administrator may `complete` a
  draft. Neither handler checks the status before `accept`: the committed one
  would move a completed case back to `accepted`, and as written the case
  stays completed only because the change is never committed;
- `assign` and `reassign` do not check that the unit exists;
- an owner may leave any number of ratings, in any status;
- the case row and its notification are committed separately.

## Model

| member | source | states |
|---|---|---|
| `Models.RoleNamesRoundTrip` | app/models.py:6-9 | each role name reads back as its role, so the three role names are distinct |
| `Models.StatusesExactlyFive` | app/models.py:27-32 | there are exactly five statuses and their stored names are pairwise distinct |
| `Models.StatusNameRoundTrip` | app/models.py:27-32 | each status name reads back as its status, and no two statuses share a name |
| `Models.ParseStatus` | app/models.py:43 | a stored status string is read only as the status whose name it is |
| `Models.NewUser` | app/models.py:11-19 | a new user row has role `user` and is active, with the given username, account id and email |
| `Models.InsertUser` | app/models.py:13-15 | committing a user fails with an integrity error exactly when username, account id or a non-null email clashes; otherwise the table is extended and stays unique |
| `Models.InsertUnit` | app/models.py:22-25 | a unit is stored exactly when its name is given and unused; the new unit is active and names stay unique |
| `Models.NewCase` | app/models.py:34-48 | a new case row is a draft, not fake, with no unit, owned by the given user |
| `Models.NewTaskAssignment` | app/models.py:76-84 | a new task assignment starts in status `assigned` |
| `Clock.Compact` | app/app.py:144 | the 14 `strftime` digits read back as year, month, day, hour, minute and second |
| `Clock.Stamp14OfRead` | app/app.py:144 | every 14-digit string is the stamp of the fields it reads as, so the stamp format loses nothing |
| `Clock.IsoFormatUtc` | app.py:31-32 | an aware UTC instant renders as the naive one followed by `+00:00` |
| `Clock.IsoFormatFields` | app.py:31-32 | the date and time fields can be read back from the `isoformat()` text at their fixed positions |
| `CaseIds.MakeCaseId` | app/app.py:144 | a generated case id has 20 characters: `A`, 14 timestamp digits, `-` and the 4 random hex digits, so it fits the column |
| `CaseIds.ParseMakeCaseId` | app/app.py:144 | parsing a generated case id recovers the creation second and the random digits |
| `CaseIds.RenderParse` | app/app.py:144 | every well-shaped id is the rendering of what it parses to |
| `CaseIds.MakeCaseIdCollision` | app/app.py:144 | two generated ids are equal exactly when made in the same second with the same random digits |
| `Uploads.AllowedFileIff` | app/app.py:68-69 | a file is allowed exactly when it has a dot and the lower-cased text after its last dot is png, jpg, jpeg, gif, mp4 or mov |
| `Uploads.KindOfAllowed` | app/app.py:164 | for an allowed file, the suffix test on the whole lower-cased name calls it a video exactly when its extension is mp4 or mov |
| `Uploads.VideoByExtension` | app/app.py:164 | among the allowed extensions exactly mp4 and mov end in `mp4` or `mov` |
| `Lifecycle.MessagesMentionCase` | app/app.py:166 | every notification text names the case it is about |
| `Lifecycle.FindCase` | app/app.py:181 | the lookup returns the first row with the identifier (and owner, when one is given), or nothing when no row matches |
| `Lifecycle.KeptUploads` | app/app.py:158-160 | exactly the uploads with a non-empty, allowed name are saved, in order |
| `Lifecycle.KeptUploadsCount` | app/app.py:158-160 | a kept upload is saved as many times as it was sent, and any other upload not at all |
| `Lifecycle.KeptUploadsAppend` | app/app.py:158-160 | filtering two batches one after the other saves what filtering them together saves, in the same order |
| `Lifecycle.MediaRowFacts` | app/app.py:161-164 | a saved upload's row is attached to the case, its path names the case id, and it is typed `video` exactly when the lower-cased secured name ends in `mp4` or `mov` |
| `Lifecycle.MediaRows` | app/app.py:158-165 | one media row per saved upload, in order, attached to the new case, its path naming the case id, typed `video` exactly when the lower-cased secured name ends in `mp4` or `mov` and `image` otherwise |
| `Lifecycle.CaseNew` | app/app.py:131-169 | an anonymous caller or a missing description or event type is refused. Otherwise the case is stored exactly when the id generated from the `utcnow()` stamp is free. It is stored as `submitted`, owned by the caller, not fake and unassigned. Its latitude, longitude and incident time are parsed only when given, and its report time is the case commit's own reading. Its media rows and its one notification to the caller carry their own commits' readings, and nothing else changes |
| `Lifecycle.CaseEdit` | app/app.py:178-199 | only the owner's case is found. Accepted, in-progress and completed cases are locked. Cancel sets `draft` and notifies the owner once. An edit replaces each editable field only when a non-empty value is given, and changes nothing else |
| `Lifecycle.CaseFeedback` | app/app.py:201-214 | a rating is stored exactly when the owner's case exists and the rating (missing reads as 0) lies in 1..5. One row is appended, with no status check, and nothing else changes |
| `Lifecycle.AdminCreateUnit` | app/app.py:220-232 | non-admins are refused. A missing or empty unit name writes nothing. Any other name adds one active unit exactly when the name is unused, and unit names stay unique |
| `Lifecycle.AdminCaseReview` | app/app.py:257-287 | non-admins are refused. `mark_fake` sets only the flag. `accept` sets `accepted` with no notification. `assign` with a unit id outside SQLite's 64-bit range, or none, is refused; otherwise it sets the unit and `in_progress`. `complete` sets `completed`. Each of the last two sends one notification to the case owner. Any other action changes nothing |
| `Lifecycle.AdminCaseReviewAsWritten` | app/app.py:265-268 | as written, `mark_fake` and `accept` succeed but leave the store unchanged, because they are never committed; every other action behaves as in the committed handler |
| `Lifecycle.MarkFakeIsLost` | app/app.py:265-266 | flagging an unflagged case as written leaves it unflagged, while the committed handler flags it |
| `Lifecycle.AcceptIsLost` | app/app.py:267-268 | accepting a case as written leaves its status, while the committed handler accepts it |
| `Lifecycle.UnitReassign` | app/app.py:309-327 | only the exact `unit` role may reassign (administrators are refused). A unit id outside SQLite's 64-bit range, or none, is refused. Reassigning sets the unit and `in_progress` and notifies the case owner once |
| `Lifecycle.AssignedTo` | app/app.py:301 | the filter keeps exactly the cases assigned to the given id, each as many times as the table holds it and no other case at all |
| `Lifecycle.AssignedToAppend` | app/app.py:301 | the filter keeps table order: the rows selected from two tables in sequence are those selected from the first, then those from the second |
| `Lifecycle.UnitDashboard` | app/app.py:290-307 | administrators see every case; a unit account sees exactly the cases whose unit id equals its own user id, each as often as the table holds it; others are refused |
| `LifecycleProperties.TraceableExtended` | app/app.py:274-278 | a store whose notifications all name a case of their recipient keeps that property when one notification about a case is appended |
| `LifecycleProperties.AppendCaseKeeps` | app/app.py:156-167 | appending a fresh case, its media and one notification about it keeps the store well formed and traceable |
| `LifecycleProperties.RowsAppended` | app/app.py:164 | media rows appended for the new case are the new tail of the table and all refer to that case |
| `LifecycleProperties.CaseNewKeeps` | app/app.py:141-167 | case creation keeps the invariant and only moves the store forward |
| `LifecycleProperties.CaseEditKeeps` | app/app.py:182-196 | editing and cancelling keep the invariant and only move the store forward |
| `LifecycleProperties.CaseFeedbackKeeps` | app/app.py:204-212 | feedback keeps the invariant and only moves the store forward |
| `LifecycleProperties.AdminCaseReviewKeeps` | app/app.py:263-285 | every review action of the committed handler keeps the invariant and only moves the store forward |
| `LifecycleProperties.AdminCaseReviewAsWrittenKeeps` | app/app.py:263-285 | every review action of the handler as written keeps the invariant and only moves the store forward |
| `LifecycleProperties.AssignKeeps` | app/app.py:269-279 | `assign` keeps the invariant: its notification goes to the owner and names the case |
| `LifecycleProperties.CompleteKeeps` | app/app.py:281-285 | `complete` keeps the invariant: its notification goes to the owner and names the case |
| `LifecycleProperties.UnitReassignKeeps` | app/app.py:315-325 | reassignment keeps the invariant and only moves the store forward |
| `LifecycleProperties.StepKeeps` | app/app.py:131-327 | any single request, the review handler as written included, keeps the invariant, moves the store forward, and adds at most one notification |
| `LifecycleProperties.RunKeeps` | app/app.py:131-327 | any sequence of requests, the review handler as written included, keeps the invariant, moves the store forward, and adds at most one notification per request |
| `LifecycleProperties.EmptyStoreKeeps` | app/app.py:131-327 | every store reachable from the empty one by the handlers as written is well formed and traceable |
| `LifecycleProperties.SubmitThenFind` | app/app.py:144-169 | a filed case is found afterwards at the end of the table, by identifier and by owner, and its reporter has one new notification |
| `LifecycleProperties.AssignCase` | app/app.py:269-279 | assigning a case puts it in progress at the unit and adds exactly one notification, to its owner |
| `LifecycleProperties.CompleteCase` | app/app.py:281-285 | completing a case keeps its assignment and adds exactly one notification, to its owner |
| `LifecycleProperties.AssignThenComplete` | app/app.py:269-285 | assigning and then completing a case leaves it completed at the unit, keeps the earlier notifications, and adds two, both to the case owner |
| `LifecycleProperties.ReportAssignComplete` | app/app.py:257-285 | report, assign, complete: the case ends completed at the unit and its reporter has received exactly three notifications |
| `LifecycleProperties.FindSameMatches` | app/app.py:181 | the lookup depends only on which rows match the identifier and owner |
| `LifecycleProperties.EditTwice` | app/app.py:192-196 | sending the same field edit twice has the same effect as sending it once |
| `LifecycleProperties.CancelThenEdit` | app/app.py:186-189 | a cancelled case is a draft again and its owner may edit it afterwards |
| `LifecycleProperties.ReassignShowsOnDashboard` | app/app.py:317-318 | after reassignment to id `u`, the case is on a unit account's dashboard exactly when that account's user id is `u` |
| `LifecycleProperties.RatingTwice` | app/app.py:205-212 | two in-range ratings of the same case are both stored |
| `LifecycleProperties.CompleteFromAnyStatus` | app/app.py:281-282 | an administrator can complete a case whatever its status, and its assignment is kept |
| `LifecycleProperties.AcceptOnCompleted` | app/app.py:267-268 | `accept` does not check the status: the committed handler moves a completed case back to `accepted`, while as written the case stays completed |
| `Documents.Or` | app.py:30 | Python's `or` returns its first operand when that is truthy and its second otherwise, so it is truthy exactly when one of them is |
| `Documents.ReadBack` | app.py:81 | a naive time written to Firestore comes back as the same instant, marked UTC |
| `Documents.Rendered` | app.py:31-32 | a stored naive time reads back as its naive ISO text followed by `+00:00`, and an aware one as its ISO text. Any other value passes through unchanged |
| `Documents.FormatCase` | app.py:27-44 | missing keys default to 0, `''`, `other`, `normal` and `pending`. The image is the first media file when `mediaFiles` is a non-empty list, else `imageUrl`, else `''`. `createdAt` is never empty: it prefers `reportTime`, then `createdAt`, rendering stored times in ISO form. The last fallback is the naive current time |
| `Documents.Serve` | app.py:48-54 | a path gets the JSON 404 exactly when it is `api/` or `static/` followed by anything; every other path gets the page |
| `Documents.CreateReport` | app.py:69-91 | a JSON object body whose copied fields hold no integer wider than 64 bits stores one new `pending` document under the new id, with the report time. `mediaFiles` is `[imageUrl]` when the URL is truthy and `[]` otherwise. Other documents are unchanged, and any other body is refused |
| `Documents.ReportDocStorable` | app.py:73-87 | the report document can be encoded exactly when every submitted field it copies can |
| `Documents.ReportDocImage` | app.py:42 | a created report is shown with exactly the submitted image URL, on either branch of the media rule |
| `Documents.ReportDocTime` | app.py:43 | a created report is shown dated by its report time, as Firestore returns it in UTC |
| `Documents.ReportRoundTrip` | app.py:74-84 | a created report, formatted, shows the submitted fields, `pending`, the submitted image URL and its creation time in UTC |
| `Documents.UpdateStatus` | app.py:94-111 | an existing document gets the sent status, unvalidated, and the update time. `afterImageUrl` is written only when truthy, and every other field and document is kept. A non-object body, or a written value with an integer wider than 64 bits, is refused; otherwise a missing document is refused |
| `Documents.StatusUpdatesStorable` | app.py:98-107 | the update can be encoded exactly when the sent status, and the after-photo when truthy, can |
| `Documents.StatusShownAfterUpdate` | app.py:98-107 | after an update, the formatted record shows exactly the sent status, and every other record is shown as before |
| `Documents.CreateCaseLegacy` | app.py:148-175 | a legacy case starts `Reported` with a one-entry history `Report Submitted`. A copied field with an integer wider than 64 bits is refused, and so is an id already in use |
| `Documents.LegacyDocStorable` | app.py:153-169 | the legacy document, history entry included, can be encoded exactly when every submitted field it copies can |
| `Documents.Target` | app.py:184-193 | a legacy update targets the document named by a string `caseID` exactly when that document exists. A missing or null `caseID`, or an unknown id, fails as not found; a non-object body or a `caseID` of another type is a bad request |
| `Documents.ArrayUnion` | app.py:197-205 | union into a list appends the entry unless it is already present and keeps the old entries as a prefix; a missing or non-list field becomes `[entry]` |
| `Documents.HistoryGrows` | app.py:193-205 | updating fields and a new history entry writes those fields, keeps every other field, and appends the entry |
| `Documents.AssignStorable` | app.py:187-205 | both writes of `assign_task` can be encoded exactly when the sent unit can |
| `Documents.AssignTask` | app.py:181-210 | `Assigned`, the unit and the time are written and a `Task Assigned` entry is in the history. The target's other fields and its earlier history entries are kept, and other documents are unchanged. A unit with an integer wider than 64 bits is refused before a missing target is noticed |
| `Documents.ProcessStorable` | app.py:222-239 | both writes of `process_case` can be encoded exactly when the sent notes and result can |
| `Documents.ProcessCase` | app.py:216-247 | `Completed`, the notes, the result and the time are written and a `Case Processed` entry is in the history. The target's other fields and its earlier history entries are kept, and other documents are unchanged. Notes or a result with an integer wider than 64 bits are refused before a missing target is noticed |
| `Documents.AssignAppends` | app.py:187-205 | assigning appends exactly one history entry, `Task Assigned`, and records the unit |
| `Documents.ProcessAppends` | app.py:222-242 | processing appends exactly one history entry, `Case Processed`, sets `Completed`, and keeps the other fields |
| `Documents.LegacyFlow` | test_api.py:10-61 | create, assign, process: the case ends `Completed` at the unit, and its history reads `Report Submitted`, `Task Assigned`, `Case Processed` |

## Left out

- Flask plumbing is not modelled because it is framework glue: routing decorators, templates, `flash` and `redirect`, `send_from_directory` and the `uploaded_file` route.
- flask_login sessions, password hashing and checking, `register`, `login`, `logout`, the OAuth stub and `db_init` seeding are left out for the same reason. A session is a parameter.
- The read-only pages `index` and `case_detail`, and the listing part of `admin_dashboard`, are not modelled because they only render templates.
- The `suspend_user` and `delete_user` actions of `admin_dashboard` are not modelled: both only clear a user's active flag, and no model member reads users. The `create_unit` action is `Lifecycle.AdminCreateUnit`.
- Lifecycle.AdminCaseReview and Lifecycle.UnitReassign: `unitId` is `int()`'s reading of the form field. Text `int()` rejects, or a missing field, arrives as `None`, so the exception on such input is modelled by `None`. The text parsing itself is not modelled.
- `get_reports` and `upload_file` in `app.py` are I/O. The first applies `format_case` to every document in Firestore's stream order; the second saves a file.
- SQLAlchemy sessions: the source commits the case, its media and its notification separately. The model applies a successful request as a whole and claims nothing about a crash between commits.
- String column widths are not modelled, since SQLite does not enforce them. The model proves only that a generated case id fits its 20 characters.
- Clock readings, `uuid4()` digits, Firestore's generated document ids and `secure_filename` results are inputs.
- Lifecycle.CaseNew: the media rows of one request share one upload-time reading. The source commits them together, and SQLAlchemy evaluates the `utcnow` default once per row, possibly microseconds apart.
- Lifecycle.CaseNew: latitude, longitude and incident time are kept as the submitted text. The `ValueError` that `float` or `datetime.fromisoformat` raises on malformed text, before any write, is not modelled.
- Lifecycle.CaseEdit: a latitude or longitude that `float` cannot parse is not modelled; the source raises before committing.
- Lifecycle.CaseFeedback: the rating arrives already parsed. The exception `int` raises on non-numeric text is not modelled; the source writes nothing in that case.
- CaseIds.MakeCaseId: only four-digit years are covered, because `%Y` does not pad years below 1000 on every platform.
- Lower-casing covers ASCII letters only. Python's Unicode `lower()` does not map any other character into an extension, so neither rule changes.
- The GET branches of `case_new` and `case_edit` only render forms, and are not modelled.
- Every failure of a Firestore handler is an HTTP 500 carrying the exception text. The model tells bad requests, missing documents and clashes apart only to name the cause.
- Firestore failures other than a missing document and an integer too wide to encode are not modelled: network errors, document ids containing `/`, field names the client rejects, and size limits.
- Documents.CreateReport: Firestore refuses an array directly inside an array, so in the source a list-valued `imageUrl` (stored as `mediaFiles: [[…]]`) or a copied field holding a list of lists makes the write fail. `Storable` checks integer widths only, so the model lets these writes succeed; the same holds for the other handlers' copied fields.
- Documents.Target: a missing `caseID` is modelled as naming no document. In the source, `document(None)` picks a fresh random id, so the later `update` fails the same way.
- The legacy handlers in `app.py` are defined after `app.run`, so they are registered only when the module is imported. The model treats them as handlers.
- `TaskAssignment` is never written by any handler. Only its defaults are modelled.

## Findings

| source | as written | input that shows it | evidently intended | confidence | as-written member | corrected member |
|---|---|---|---|---|---|---|
| app/app.py:265-268 | the `mark_fake` and `accept` branches change the loaded row but never call `db.session.commit()`. Flask-SQLAlchemy removes the session at the end of the request, so the change is discarded | an administrator posts `action=accept` for a `submitted` case: the case stays `submitted` | the change is committed, as `assign` and `complete` commit theirs | high; not executed | `Lifecycle.AdminCaseReviewAsWritten` | `Lifecycle.AdminCaseReview` |

=== FILE: caseids.dfy ===
/**
 The external case identifier: `'A'`, the UTC creation time as
 `%Y%m%d%H%M%S`, `'-'`, and the first four hex digits of a random UUID.
 The random digits are a parameter.
 */
module CaseIds {
  import opened Common
  import opened Text
  import opened Clock
  import Models

  predicate IsLowerHex(c: char) {
    '0' <= c <= '9' || 'a' <= c <= 'f'
  }

  /** Four characters of `uuid4().hex`: lower-case hexadecimal. */
  type Hex4 = s: string | |s| == 4 && forall i :: 0 <= i < |s| ==> IsLowerHex(s[i]) witness "0000"

  /** What a case identifier records: the creation second and the random suffix. */
  datatype CaseIdParts = CaseIdParts(stamp: StampFields, token: Hex4)

  predicate Renderable(p: CaseIdParts) {
    var f := p.stamp;
    f.year < 10000 && f.month < 100 && f.day < 100 && f.hour < 100 && f.minute < 100 && f.second < 100
  }

  function Render(p: CaseIdParts): string
    requires Renderable(p)
  {
    var f := p.stamp;
    "A" + Stamp14(f.year, f.month, f.day, f.hour, f.minute, f.second) + "-" + p.token
  }

  /** The identifier `case_new` generates at instant `now` with random suffix `token`. */
  function MakeCaseId(now: Instant, token: Hex4): (cid: string)
    requires now.year >= 1000
    ensures |cid| == Models.CaseIdWidth
    ensures cid[0] == 'A' && cid[15] == '-' && cid[16..] == token
    ensures AllDigits(cid[1..15]) && ReadStamp14(cid[1..15]) == StampFields(now.year, now.month, now.day, now.hour, now.minute, now.second)
  {
    var cid := "A" + Compact(now) + "-" + token;
    assert cid[1..15] == Compact(now);
    cid
  }

  /** Shape of a generated identifier. */
  predicate WellShaped(s: string) {
    && |s| == 20
    && s[0] == 'A'
    && AllDigits(s[1..15])
    && s[15] == '-'
    && forall i :: 16 <= i < 20 ==> IsLowerHex(s[i])
  }

  function ParseCaseId(s: string): (r: Option<CaseIdParts>)
    ensures r.Some? <==> WellShaped(s)
    ensures r.Some? ==> Renderable(r.value)
  {
    if WellShaped(s) then
      assert forall i :: 0 <= i < 4 ==> s[16..][i] == s[16 + i];
      Some(CaseIdParts(ReadStamp14(s[1..15]), s[16..]))
    else None
  }

  /** Parsing a generated identifier recovers the creation second and the suffix. */
  lemma ParseMakeCaseId(now: Instant, token: Hex4)
    requires now.year >= 1000
    ensures ParseCaseId(MakeCaseId(now, token))
         == Some(CaseIdParts(StampFields(now.year, now.month, now.day, now.hour, now.minute, now.second), token))
  {
    var cid := MakeCaseId(now, token);
    assert forall i :: 16 <= i < 20 ==> cid[i] == token[i - 16];
  }

  /** Parsing a rendered identifier recovers its parts. */
  lemma ParseRender(p: CaseIdParts)
    requires Renderable(p)
    ensures ParseCaseId(Render(p)) == Some(p)
  {
    var f := p.stamp;
    var s := Render(p);
    var d := Stamp14(f.year, f.month, f.day, f.hour, f.minute, f.second);
    assert s[1..15] == d;
    assert s[16..] == p.token;
    assert forall i :: 16 <= i < 20 ==> s[i] == p.token[i - 16];
    ReadStamp14Of(f.year, f.month, f.day, f.hour, f.minute, f.second);
  }

  /** Every well-shaped identifier is the rendering of what it parses to. */
  lemma {:induction false} RenderParse(s: string)
    requires ParseCaseId(s).Some?
    ensures Render(ParseCaseId(s).value) == s
  {
    Stamp14OfRead(s[1..15]);
    assert s == [s[0]] + s[1..15] + [s[15]] + s[16..];
  }

  /** Two generated identifiers collide exactly when they were made in the same second with the same suffix. */
  lemma MakeCaseIdCollision(t1: Instant, h1: Hex4, t2: Instant, h2: Hex4)
    requires t1.year >= 1000 && t2.year >= 1000
    ensures MakeCaseId(t1, h1) == MakeCaseId(t2, h2) <==>
      && t1.year == t2.year && t1.month == t2.month && t1.day == t2.day
      && t1.hour == t2.hour && t1.minute == t2.minute && t1.second == t2.second
      && h1 == h2
  {
    ParseMakeCaseId(t1, h1);
    ParseMakeCaseId(t2, h2);
  }
}

=== FILE: clock.dfy ===
/**
 Calendar instants and the two text renderings the platform uses:
 `strftime('%Y%m%d%H%M%S')` for case identifiers and `isoformat()` for the
 JSON `createdAt` field. The clock itself is never read: every "now" is a
 parameter of the operation that needs it.
 */
module Clock {
  import opened Text

  /** A Python `datetime`; `utc` marks an aware instant in UTC (as Firestore returns them). */
  datatype DateTime = DateTime(
    year: int, month: int, day: int,
    hour: int, minute: int, second: int, microsecond: int,
    utc: bool)

  predicate IsLeap(year: int) {
    year % 4 == 0 && (year % 100 != 0 || year % 400 == 0)
  }

  function DaysIn(year: int, month: int): int {
    if month == 2 then (if IsLeap(year) then 29 else 28)
    else if month in {4, 6, 9, 11} then 30
    else 31
  }

  /** The ranges Python's `datetime` constructor enforces. */
  predicate Valid(t: DateTime) {
    && 1 <= t.year <= 9999
    && 1 <= t.month <= 12
    && 1 <= t.day <= DaysIn(t.year, t.month)
    && 0 <= t.hour < 24
    && 0 <= t.minute < 60
    && 0 <= t.second < 60
    && 0 <= t.microsecond < 1000000
  }

  type Instant = t: DateTime | Valid(t) witness DateTime(1970, 1, 1, 0, 0, 0, 0, false)

  /** Six calendar fields as `%Y%m%d%H%M%S` digits: 4 for the year, 2 for each other field. */
  function Stamp14(year: nat, month: nat, day: nat, hour: nat, minute: nat, second: nat): (s: string)
    requires year < 10000 && month < 100 && day < 100 && hour < 100 && minute < 100 && second < 100
    ensures |s| == 14 && AllDigits(s)
  {
    Padded(year, 4) + (Padded(month, 2) + (Padded(day, 2)
      + (Padded(hour, 2) + (Padded(minute, 2) + Padded(second, 2)))))
  }

  /** The six fields a 14-digit stamp records. */
  datatype StampFields = StampFields(year: nat, month: nat, day: nat, hour: nat, minute: nat, second: nat)

  function ReadStamp14(s: string): (f: StampFields)
    requires |s| == 14 && AllDigits(s)
    ensures f.year < 10000 && f.month < 100 && f.day < 100
    ensures f.hour < 100 && f.minute < 100 && f.second < 100
  {
    var r1 := s[4..];
    var r2 := r1[2..];
    var r3 := r2[2..];
    var r4 := r3[2..];
    ValueOfBound(s[..4]);
    ValueOfBound(r1[..2]);
    ValueOfBound(r2[..2]);
    ValueOfBound(r3[..2]);
    ValueOfBound(r4[..2]);
    ValueOfBound(r4[2..]);
    StampFields(ValueOf(s[..4]), ValueOf(r1[..2]), ValueOf(r2[..2]),
                ValueOf(r3[..2]), ValueOf(r4[..2]), ValueOf(r4[2..]))
  }

  /** A stamp reads back as the fields it was written from. */
  lemma ReadStamp14Of(year: nat, month: nat, day: nat, hour: nat, minute: nat, second: nat)
    requires year < 10000 && month < 100 && day < 100 && hour < 100 && minute < 100 && second < 100
    ensures ReadStamp14(Stamp14(year, month, day, hour, minute, second))
         == StampFields(year, month, day, hour, minute, second)
  {
    var s := Stamp14(year, month, day, hour, minute, second);
    var r1 := s[4..];
    var r2 := r1[2..];
    var r3 := r2[2..];
    var r4 := r3[2..];
    assert s[..4] == Padded(year, 4);
    assert r1 == Padded(month, 2) + (Padded(day, 2) + (Padded(hour, 2) + (Padded(minute, 2) + Padded(second, 2))));
    assert r1[..2] == Padded(month, 2);
    assert r2 == Padded(day, 2) + (Padded(hour, 2) + (Padded(minute, 2) + Padded(second, 2)));
    assert r2[..2] == Padded(day, 2);
    assert r3 == Padded(hour, 2) + (Padded(minute, 2) + Padded(second, 2));
    assert r3[..2] == Padded(hour, 2);
    assert r4 == Padded(minute, 2) + Padded(second, 2);
    assert r4[..2] == Padded(minute, 2);
    assert r4[2..] == Padded(second, 2);
  }

  /** A digit string is its first `w` digits, re-padded, followed by the rest. */
  lemma SplitDigits(s: string, w: nat)
    requires AllDigits(s) && w <= |s|
    ensures AllDigits(s[..w]) && AllDigits(s[w..])
    ensures ValueOf(s[..w]) < Pow10(w)
    ensures s == Padded(ValueOf(s[..w]), w) + s[w..]
  {
    PaddedValueOf(s[..w]);
    assert s == s[..w] + s[w..];
  }

  /** Every 14-digit string is the stamp of the fields it reads as. */
  lemma {:induction false} Stamp14OfRead(s: string)
    requires |s| == 14 && AllDigits(s)
    ensures var f := ReadStamp14(s);
      Stamp14(f.year, f.month, f.day, f.hour, f.minute, f.second) == s
  {
    var f := ReadStamp14(s);
    var r1 := s[4..];
    var r2 := r1[2..];
    var r3 := r2[2..];
    var r4 := r3[2..];
    SplitDigits(s, 4);
    SplitDigits(r1, 2);
    SplitDigits(r2, 2);
    SplitDigits(r3, 2);
    SplitDigits(r4, 2);
    PaddedValueOf(r4[2..]);
    assert r4 == Padded(f.minute, 2) + Padded(f.second, 2);
    assert r3 == Padded(f.hour, 2) + r4;
    assert r2 == Padded(f.day, 2) + r3;
    assert r1 == Padded(f.month, 2) + r2;
    assert s == Padded(f.year, 4) + r1;
  }

  /** `t.strftime('%Y%m%d%H%M%S')` for four-digit years. */
  function Compact(t: Instant): (s: string)
    requires t.year >= 1000
    ensures |s| == 14 && AllDigits(s)
    ensures ReadStamp14(s) == StampFields(t.year, t.month, t.day, t.hour, t.minute, t.second)
  {
    ReadStamp14Of(t.year, t.month, t.day, t.hour, t.minute, t.second);
    Stamp14(t.year, t.month, t.day, t.hour, t.minute, t.second)
  }

  /** The part of `isoformat()` after the seconds: microseconds if non-zero, then the UTC offset if aware. */
  function IsoTail(t: Instant): (s: string)
    ensures |s| == (if t.microsecond != 0 then 7 else 0) + (if t.utc then 6 else 0)
  {
    (if t.microsecond != 0 then "." + Padded(t.microsecond, 6) else "")
      + (if t.utc then "+00:00" else "")
  }

  /** `t.isoformat()`: `YYYY-MM-DDTHH:MM:SS[.ffffff][+00:00]`. */
  function IsoFormat(t: Instant): (s: string)
    ensures |s| == 19 + |IsoTail(t)|
    ensures s[4] == '-' && s[7] == '-' && s[10] == 'T' && s[13] == ':' && s[16] == ':'
    ensures s[19..] == IsoTail(t)
  {
    Padded(t.year, 4) + "-" + Padded(t.month, 2) + "-" + Padded(t.day, 2)
      + "T" + Padded(t.hour, 2) + ":" + Padded(t.minute, 2) + ":" + Padded(t.second, 2)
      + IsoTail(t)
  }

  /** An aware UTC instant renders as the naive one followed by the offset `+00:00`. */
  lemma IsoFormatUtc(t: Instant)
    ensures IsoFormat(t.(utc := true)) == IsoFormat(t.(utc := false)) + "+00:00"
  {
    IsoFormatUtcOf(t.(utc := false));
  }

  /** `IsoFormatUtc` for an instant that is naive to begin with. */
  lemma IsoFormatUtcOf(t: Instant)
    requires !t.utc
    ensures IsoFormat(t.(utc := true)) == IsoFormat(t) + "+00:00"
  {
    var u := t.(utc := true);
    var m := if t.microsecond != 0 then "." + Padded(t.microsecond, 6) else "";
    assert IsoTail(t) == m + "" == m;
    assert IsoTail(u) == m + "+00:00";
    var a := IsoFormat(t);
    var b := IsoFormat(u);
    assert a[..19] == b[..19];
    assert a == a[..19] + m;
    assert b == b[..19] + (m + "+00:00");
  }

  /** The date and time fields can be read back from the ISO rendering. */
  lemma IsoFormatFields(t: Instant)
    ensures var s := IsoFormat(t);
      && AllDigits(s[0..4]) && ValueOf(s[0..4]) == t.year
      && AllDigits(s[5..7]) && ValueOf(s[5..7]) == t.month
      && AllDigits(s[8..10]) && ValueOf(s[8..10]) == t.day
      && AllDigits(s[11..13]) && ValueOf(s[11..13]) == t.hour
      && AllDigits(s[14..16]) && ValueOf(s[14..16]) == t.minute
      && AllDigits(s[17..19]) && ValueOf(s[17..19]) == t.second
  {
    var s := IsoFormat(t);
    assert s[0..4] == Padded(t.year, 4);
    assert s[5..7] == Padded(t.month, 2);
    assert s[8..10] == Padded(t.day, 2);
    assert s[11..13] == Padded(t.hour, 2);
    assert s[14..16] == Padded(t.minute, 2);
    assert s[17..19] == Padded(t.second, 2);
  }
}

=== FILE: common.dfy ===
/**
 Shared result types for the reporting platform model.

 Every request handler of the platform either answers with a write to the
 store or turns the request away (a redirect with a flash message, a 404, a
 500 raised from an exception). `Result` carries the new store on success and
 the kind of refusal otherwise; a refused request writes nothing.
 */
module Common {

  /** A value that may be absent (Python's `None`, a missing form field). */
  datatype Option<+T> = None | Some(value: T) {

    /** The carried value, or `default` when absent (`x or default` / `get(k, default)`). */
    function GetOr(default: T): T {
      match this
      case Some(v) => v
      case None => default
    }
  }

  /** Why a request was turned away. */
  datatype Error =
    | LoginRequired    // `@login_required` redirected an anonymous caller
    | Forbidden        // a role check failed: flash and redirect
    | NotFound         // `first_or_404`, or a Firestore update of a missing document
    | Invalid          // a form check failed: flash and redirect
    | Locked           // the case is accepted, in progress or completed
    | BadRequest       // `int()` of a bad field, a body that is not a JSON object, an integer too wide to store
    | IntegrityError   // a unique or not-null column constraint failed at commit
    | Conflict         // Firestore `add` of a document id that already exists

  /**
   A signed 64-bit integer. Both stores keep integers in 64 bits: SQLite
   raises `OverflowError` when a wider Python `int` is committed, and the
   Firestore client refuses to encode one; either way nothing is written.
   */
  predicate FitsInteger(n: int) {
    -0x8000_0000_0000_0000 <= n < 0x8000_0000_0000_0000
  }

  /** The outcome of one request. */
  datatype Result<+T> = Success(value: T) | Failure(error: Error) {

    predicate IsFailure() {
      Failure?
    }

    function PropagateFailure<U>(): Result<U>
      requires Failure?
    {
      Failure(error)
    }

    function Extract(): T
      requires Success?
    {
      value
    }
  }
}

=== FILE: documents.dfy ===
/**
 The Firestore side of the platform: the `cases` collection as a map from
 document id to document, the normaliser that turns a stored document into
 the record the React front end reads, the catch-all page route, and the
 JSON handlers that create and update documents.

 Each handler runs inside `try ... except Exception`, so every refusal is
 answered with HTTP 500; the `Error` only records why. Document ids chosen
 by Firestore and every `datetime.now()` reading are parameters.
 */
module Documents {
  import opened Common
  import opened Text
  import opened Clock

  /** A Firestore / JSON value. */
  datatype Value =
    | Null
    | Bool(b: bool)
    | Int(i: int)
    | Num(r: real)
    | Str(s: string)
    | Time(t: Instant)
    | List(items: seq<Value>)
    | Object(fields: map<string, Value>)

  /** A stored document's fields. */
  type Doc = map<string, Value>

  /** The `cases` collection: document id to document. */
  type Collection = map<string, Doc>

  /**
   A value the Firestore client can encode: every integer in it, at any
   depth, fits in 64 bits. A wider one makes the write raise before anything
   is sent.
   */
  predicate Storable(v: Value) {
    match v
    case Int(i) => FitsInteger(i)
    case List(items) => forall x :: x in items ==> Storable(x)
    case Object(fields) => forall k :: k in fields ==> Storable(fields[k])
    case _ => true
  }

  /** Every field of a document to be written is encodable. */
  predicate DocStorable(d: Doc) {
    forall k :: k in d ==> Storable(d[k])
  }

  /** Python truthiness. */
  predicate Truthy(v: Value) {
    match v
    case Null => false
    case Bool(b) => b
    case Int(i) => i != 0
    case Num(r) => r != 0.0
    case Str(s) => |s| > 0
    case Time(_) => true
    case List(items) => |items| > 0
    case Object(fields) => |fields| > 0
  }

  /** `d.get(k, default)`. */
  function GetOr(d: Doc, k: string, default: Value): (v: Value)
    ensures k in d ==> v == d[k]
    ensures k !in d ==> v == default
  {
    if k in d then d[k] else default
  }

  /** `d.get(k)`: `None` when the key is missing. */
  function Get(d: Doc, k: string): Value {
    GetOr(d, k, Null)
  }

  /** Python's `a or b`. */
  function Or(a: Value, b: Value): (v: Value)
    ensures Truthy(v) <==> Truthy(a) || Truthy(b)
    ensures Truthy(a) ==> v == a
    ensures !Truthy(a) ==> v == b
  {
    if Truthy(a) then a else b
  }

  /** Document `d` has field `k`, holding `v`. */
  predicate Holds(d: Doc, k: string, v: Value) {
    k in d && d[k] == v
  }

  /** Document `d` has a `history` list containing entry `e`. */
  predicate Logged(d: Doc, e: Value) {
    "history" in d && d["history"].List? && e in d["history"].items
  }

  /** The record `format_case` returns. */
  datatype CaseView = CaseView(
    id: string,
    latitude: Value,
    longitude: Value,
    description: Value,
    category: Value,
    severity: Value,
    status: Value,
    imageUrl: Value,
    createdAt: Value)

  /**
   A time as Firestore hands it back. The client library stores a naive
   `datetime` as if it were UTC and reads every timestamp back as an aware
   UTC one, so the digits are kept and `isoformat()` gains `+00:00`.
   */
  function ReadBack(t: Instant): (u: Instant)
    ensures u.utc
    ensures u.(utc := t.utc) == t
  {
    t.(utc := true)
  }

  /** A stored time, read back and rendered through `isoformat()`; other values pass through. */
  function Rendered(v: Value): (w: Value)
    ensures !w.Time?
    ensures Truthy(w) <==> Truthy(v)
    ensures v.Time? ==> w.Str? && EndsWith(w.s, "+00:00")
    ensures v.Time? && !v.t.utc ==> w == Str(IsoFormat(v.t) + "+00:00")
    ensures v.Time? && v.t.utc ==> w == Str(IsoFormat(v.t))
    ensures !v.Time? ==> w == v
  {
    match v
    case Time(t) =>
      IsoFormatUtc(t);
      Str(IsoFormat(ReadBack(t)))
    case _ => v
  }

  /** `mediaFiles` holds a non-empty list. */
  predicate HasMedia(data: Doc) {
    var m := Get(data, "mediaFiles");
    m.List? && |m.items| > 0
  }

  /**
   `format_case`: defaults for missing keys, the first media file in
   preference to `imageUrl`, and `reportTime` in preference to `createdAt`,
   falling back to the reading `now` of the clock.
   */
  function FormatCase(id: string, data: Doc, now: Instant): (r: CaseView)
    requires !now.utc
    ensures r.id == id
    ensures "location_lat" !in data ==> r.latitude == Int(0)
    ensures "location_lng" !in data ==> r.longitude == Int(0)
    ensures "description" !in data ==> r.description == Str("")
    ensures "category" !in data ==> r.category == Str("other")
    ensures "severity" !in data ==> r.severity == Str("normal")
    ensures "status" !in data ==> r.status == Str("pending")
    ensures HasMedia(data) ==> r.imageUrl == data["mediaFiles"].items[0]
    ensures !HasMedia(data) ==> r.imageUrl == GetOr(data, "imageUrl", Str(""))
    ensures Truthy(r.createdAt) && !r.createdAt.Time?
    ensures Truthy(Get(data, "reportTime")) ==> r.createdAt == Rendered(data["reportTime"])
    ensures !Truthy(Get(data, "reportTime")) && Truthy(Get(data, "createdAt")) ==> r.createdAt == Rendered(data["createdAt"])
    ensures !Truthy(Get(data, "reportTime")) && !Truthy(Get(data, "createdAt")) ==> r.createdAt == Str(IsoFormat(now))
  {
    var created := Rendered(Or(Get(data, "reportTime"), Get(data, "createdAt")));
    var image := if HasMedia(data) then GetOr(data, "mediaFiles", List([Str("")])).items[0]
                 else GetOr(data, "imageUrl", Str(""));
    assert |IsoFormat(now)| >= 19;
    CaseView(
      id,
      GetOr(data, "location_lat", Int(0)),
      GetOr(data, "location_lng", Int(0)),
      GetOr(data, "description", Str("")),
      GetOr(data, "category", Str("other")),
      GetOr(data, "severity", Str("normal")),
      GetOr(data, "status", Str("pending")),
      image,
      Or(created, Str(IsoFormat(now))))
  }

  /** A key that is present is shown as stored, whatever its value (even `null`). */
  lemma FormatShowsStored(id: string, data: Doc, now: Instant)
    requires !now.utc
    ensures var r := FormatCase(id, data, now);
      && ("location_lat" in data ==> r.latitude == data["location_lat"])
      && ("location_lng" in data ==> r.longitude == data["location_lng"])
      && ("description" in data ==> r.description == data["description"])
      && ("category" in data ==> r.category == data["category"])
      && ("severity" in data ==> r.severity == data["severity"])
      && ("status" in data ==> r.status == data["status"])
  {
  }

  /** What `serve` answers. */
  datatype Page = NotFoundJson | IndexPage

  /** `serve`: API and static paths that reach it are 404s; every other path gets the single-page app. */
  function Serve(path: string): (p: Page)
    ensures p == NotFoundJson <==> exists rest :: path == "api/" + rest || path == "static/" + rest
  {
    if StartsWith(path, "api/") || StartsWith(path, "static/") then
      assert StartsWith(path, "api/") ==> path == "api/" + path[4..];
      assert StartsWith(path, "static/") ==> path == "static/" + path[7..];
      NotFoundJson
    else
      assert forall rest :: path != "api/" + rest && path != "static/" + rest by {
        forall rest ensures path != "api/" + rest && path != "static/" + rest {
          assert StartsWith("api/" + rest, "api/") by { assert ("api/" + rest)[..4] == "api/"; }
          assert StartsWith("static/" + rest, "static/") by { assert ("static/" + rest)[..7] == "static/"; }
        }
      }
      IndexPage
  }

  /** A new document and the id it was stored under. */
  datatype Created = Created(store: Collection, id: string)

  /** `mediaFiles` is the one-element list `[image]` when `image` is truthy, and empty otherwise. */
  predicate MediaFilesOf(d: Doc, image: Value) {
    && "mediaFiles" in d
    && d["mediaFiles"] == (if Truthy(image) then List([image]) else List([]))
  }

  /** The document `create_report` writes for a JSON object `body`. */
  function ReportDoc(body: Doc, now: Instant): Doc {
    var image := Get(body, "imageUrl");
    map[
      "description" := Get(body, "description"),
      "category" := Get(body, "category"),
      "severity" := Get(body, "severity"),
      "location_lat" := Get(body, "latitude"),
      "location_lng" := Get(body, "longitude"),
      "status" := Str("pending"),
      "reportTime" := Time(now),
      "imageUrl" := image,
      "mediaFiles" := if Truthy(image) then List([image]) else List([])]
  }

  /** The submitted fields `create_report` copies into the new document. */
  const ReportFields: set<string> := {"description", "category", "severity", "latitude", "longitude", "imageUrl"}

  /** The report document can be written exactly when every submitted field it copies can. */
  lemma ReportDocStorable(body: Doc, now: Instant)
    ensures DocStorable(ReportDoc(body, now)) <==> forall k :: k in ReportFields ==> Storable(Get(body, k))
  {
    if forall k :: k in ReportFields ==> Storable(Get(body, k)) {
      ReportDocStorableIf(body, now);
    } else {
      var k :| k in ReportFields && !Storable(Get(body, k));
      ReportDocStorableOnlyIf(body, now, k);
    }
  }

  /** Storable submitted fields make a storable report document. */
  lemma ReportDocStorableIf(body: Doc, now: Instant)
    requires forall k :: k in ReportFields ==> Storable(Get(body, k))
    ensures DocStorable(ReportDoc(body, now))
  {
    var image := Get(body, "imageUrl");
    assert Storable(image);
    assert Storable(if Truthy(image) then List([image]) else List([])) by {
      if Truthy(image) { assert List([image]).items == [image]; }
    }
  }

  /** One submitted field that cannot be encoded makes the report document fail. */
  lemma ReportDocStorableOnlyIf(body: Doc, now: Instant, k: string)
    requires k in ReportFields && !Storable(Get(body, k))
    ensures !DocStorable(ReportDoc(body, now))
  {
    var d := ReportDoc(body, now);
    var stored := if k == "latitude" then "location_lat" else if k == "longitude" then "location_lng" else k;
    assert d[stored] == Get(body, k);
  }

  /**
   `create_report`: store a new `pending` report under the fresh id `docId`.
   A body that is not a JSON object makes `data.get` raise, and so does
   `set` when a copied field holds an integer wider than 64 bits.
   */
  function CreateReport(store: Collection, body: Value, docId: string, now: Instant): (r: Result<Created>)
    ensures r.Success? <==> body.Object? && forall k :: k in ReportFields ==> Storable(Get(body.fields, k))
    ensures r.Failure? ==> r == Failure(BadRequest)
    ensures r.Success? ==>
      && r.value.id == docId
      && r.value.store.Keys == store.Keys + {docId}
      && (forall k :: k in store && k != docId ==> r.value.store[k] == store[k])
      && var d := r.value.store[docId];
      && Holds(d, "status", Str("pending"))
      && Holds(d, "reportTime", Time(now))
      && Holds(d, "imageUrl", Get(body.fields, "imageUrl"))
      && MediaFilesOf(d, Get(body.fields, "imageUrl"))
  {
    match body
    case Object(fields) =>
      ReportDocStorable(fields, now);
      if !DocStorable(ReportDoc(fields, now)) then Failure(BadRequest)
      else Success(Created(store[docId := ReportDoc(fields, now)], docId))
    case _ => Failure(BadRequest)
  }

  /** The image URL of a stored report, formatted, is the submitted one on either branch of the `mediaFiles` rule. */
  lemma ReportDocImage(id: string, body: Doc, now: Instant, later: Instant)
    requires !later.utc
    ensures FormatCase(id, ReportDoc(body, now), later).imageUrl == Get(body, "imageUrl")
  {
    var d := ReportDoc(body, now);
    var image := Get(body, "imageUrl");
    if Truthy(image) {
      assert HasMedia(d) && d["mediaFiles"].items[0] == image;
    } else {
      assert !HasMedia(d) && d["imageUrl"] == image;
    }
  }

  /** A stored report, formatted, is dated by its report time. */
  lemma ReportDocTime(id: string, body: Doc, now: Instant, later: Instant)
    requires !later.utc
    ensures FormatCase(id, ReportDoc(body, now), later).createdAt == Str(IsoFormat(ReadBack(now)))
  {
    assert Get(ReportDoc(body, now), "reportTime") == Time(now);
  }

  /** A stored report, formatted, shows the submitted text fields and `pending`. */
  lemma ReportDocFields(id: string, body: Doc, now: Instant, later: Instant)
    requires !later.utc
    ensures var v := FormatCase(id, ReportDoc(body, now), later);
      && v.status == Str("pending")
      && v.description == Get(body, "description")
      && v.category == Get(body, "category")
      && v.severity == Get(body, "severity")
      && v.latitude == Get(body, "latitude")
      && v.longitude == Get(body, "longitude")
  {
    var d := ReportDoc(body, now);
    assert d["status"] == Str("pending");
    assert d["description"] == Get(body, "description");
    assert d["category"] == Get(body, "category");
    assert d["severity"] == Get(body, "severity");
    assert d["location_lat"] == Get(body, "latitude");
    assert d["location_lng"] == Get(body, "longitude");
    FormatShowsStored(id, d, later);
  }

  /**
   A report formatted after creation shows what was submitted: the same
   image URL on either branch of the `mediaFiles` rule, the submitted
   fields, `pending`, and the creation time.
   */
  lemma ReportRoundTrip(store: Collection, body: Value, docId: string, now: Instant, later: Instant)
    requires !later.utc
    requires body.Object? && forall k :: k in ReportFields ==> Storable(Get(body.fields, k))
    ensures var c := CreateReport(store, body, docId, now).value;
      var v := FormatCase(docId, c.store[docId], later);
      && v.id == docId
      && v.status == Str("pending")
      && v.imageUrl == Get(body.fields, "imageUrl")
      && v.description == Get(body.fields, "description")
      && v.category == Get(body.fields, "category")
      && v.severity == Get(body.fields, "severity")
      && v.latitude == Get(body.fields, "latitude")
      && v.longitude == Get(body.fields, "longitude")
      && v.createdAt == Str(IsoFormat(ReadBack(now)))
  {
    var c := CreateReport(store, body, docId, now).value;
    assert c.store[docId] == ReportDoc(body.fields, now);
    ReportDocImage(docId, body.fields, now, later);
    ReportDocTime(docId, body.fields, now, later);
    ReportDocFields(docId, body.fields, now, later);
  }

  /** The fields `update_status` writes: status, time, and the after-photo only when it is truthy. */
  function StatusUpdates(body: Doc, now: Instant): (u: Doc)
    ensures u.Keys == {"status", "lastUpdated"} + (if Truthy(Get(body, "afterImageUrl")) then {"afterImageUrl"} else {})
  {
    var u := map["status" := Get(body, "status"), "lastUpdated" := Time(now)];
    if Truthy(Get(body, "afterImageUrl")) then u["afterImageUrl" := body["afterImageUrl"]] else u
  }

  /** The sent status, and the after-photo when it is written, can be encoded. */
  predicate StatusStorable(body: Doc) {
    && Storable(Get(body, "status"))
    && (Truthy(Get(body, "afterImageUrl")) ==> Storable(Get(body, "afterImageUrl")))
  }

  /** The fields `update_status` writes can be encoded exactly when the sent ones can. */
  lemma StatusUpdatesStorable(body: Doc, now: Instant)
    ensures DocStorable(StatusUpdates(body, now)) <==> StatusStorable(body)
  {
    var u := StatusUpdates(body, now);
    assert u["status"] == Get(body, "status");
    if Truthy(Get(body, "afterImageUrl")) {
      assert u["afterImageUrl"] == Get(body, "afterImageUrl");
    }
  }

  /**
   `update_status`: merge the new status, unvalidated, into an existing
   document. The client encodes the update first, so an integer wider than
   64 bits raises before Firestore's `update` of a missing document does.
   */
  function UpdateStatus(store: Collection, caseId: string, body: Value, now: Instant): (r: Result<Collection>)
    ensures r.Success? <==> body.Object? && StatusStorable(body.fields) && caseId in store
    ensures !body.Object? ==> r == Failure(BadRequest)
    ensures body.Object? && !StatusStorable(body.fields) ==> r == Failure(BadRequest)
    ensures body.Object? && StatusStorable(body.fields) && caseId !in store ==> r == Failure(NotFound)
    ensures r.Success? ==>
      && r.value.Keys == store.Keys
      && (forall k :: k in store && k != caseId ==> r.value[k] == store[k])
      && var old_ := store[caseId];
      && var d := r.value[caseId];
      && var after := Get(body.fields, "afterImageUrl");
      && Holds(d, "status", Get(body.fields, "status"))
      && Holds(d, "lastUpdated", Time(now))
      && (Truthy(after) ==> Holds(d, "afterImageUrl", after))
      && (!Truthy(after) ==> ("afterImageUrl" in d <==> "afterImageUrl" in old_))
      && (forall k :: k in old_ && k != "status" && k != "lastUpdated" && (k != "afterImageUrl" || !Truthy(after))
                      ==> k in d && d[k] == old_[k])
      && d.Keys == old_.Keys + StatusUpdates(body.fields, now).Keys
  {
    match body
    case Object(fields) =>
      StatusUpdatesStorable(fields, now);
      if !DocStorable(StatusUpdates(fields, now)) then Failure(BadRequest)
      else if caseId in store then Success(store[caseId := store[caseId] + StatusUpdates(fields, now)])
      else Failure(NotFound)
    case _ => Failure(BadRequest)
  }

  /** After a status update the normalised record shows the status exactly as it was sent, and no other record changes. */
  lemma StatusShownAfterUpdate(store: Collection, caseId: string, body: Value, now: Instant, later: Instant)
    requires !later.utc
    requires body.Object? && StatusStorable(body.fields) && caseId in store
    ensures var t := UpdateStatus(store, caseId, body, now).value;
      && FormatCase(caseId, t[caseId], later).status == Get(body.fields, "status")
      && forall k :: k in store && k != caseId ==> FormatCase(k, t[k], later) == FormatCase(k, store[k], later)
  {
    var t := UpdateStatus(store, caseId, body, now).value;
    FormatShowsStored(caseId, t[caseId], later);
  }

  /** One entry of a legacy case's `history` list. */
  function Entry(fields: map<string, Value>): Value {
    Object(fields)
  }

  /** `firestore.ArrayUnion([e])` applied to the current field value: append `e` unless present; a non-list becomes `[e]`. */
  function ArrayUnion(current: Option<Value>, e: Value): (v: Value)
    ensures v.List? && e in v.items
    ensures current.Some? && current.value.List? ==>
      && |v.items| == |current.value.items| + (if e in current.value.items then 0 else 1)
      && v.items[..|current.value.items|] == current.value.items
    ensures !(current.Some? && current.value.List?) ==> v == List([e])
  {
    match current
    case Some(List(items)) => if e in items then List(items) else List(items + [e])
    case _ => List([e])
  }

  /** The current value of field `k`, if the document has it. */
  function Field(d: Doc, k: string): Option<Value> {
    if k in d then Some(d[k]) else None
  }

  /** The document `create_case_legacy` writes; `created` and `logged` are its two clock readings. */
  function LegacyDoc(body: Doc, created: Instant, logged: Instant): Doc {
    map[
      "description" := Get(body, "description"),
      "location" := Get(body, "location"),
      "photoUrl" := Get(body, "photoUrl"),
      "memberId" := Get(body, "memberId"),
      "status" := Str("Reported"),
      "createdAt" := Time(created),
      "history" := List([Entry(map[
        "action" := Str("Report Submitted"),
        "time" := Time(logged),
        "detail" := Get(body, "description")])])]
  }

  /** The submitted fields `create_case_legacy` copies into the new document. */
  const LegacyFields: set<string> := {"description", "location", "photoUrl", "memberId"}

  /** The legacy document can be written exactly when every submitted field it copies can. */
  lemma LegacyDocStorable(body: Doc, created: Instant, logged: Instant)
    ensures DocStorable(LegacyDoc(body, created, logged)) <==> forall k :: k in LegacyFields ==> Storable(Get(body, k))
  {
    if forall k :: k in LegacyFields ==> Storable(Get(body, k)) {
      LegacyDocStorableIf(body, created, logged);
    } else {
      var k :| k in LegacyFields && !Storable(Get(body, k));
      LegacyDocStorableOnlyIf(body, created, logged, k);
    }
  }

  /** Storable submitted fields make a storable legacy document, history entry included. */
  lemma LegacyDocStorableIf(body: Doc, created: Instant, logged: Instant)
    requires forall k :: k in LegacyFields ==> Storable(Get(body, k))
    ensures DocStorable(LegacyDoc(body, created, logged))
  {
    var first := map["action" := Str("Report Submitted"), "time" := Time(logged), "detail" := Get(body, "description")];
    assert Storable(Get(body, "description"));
    assert Storable(Entry(first));
    assert Storable(List([Entry(first)])) by {
      assert List([Entry(first)]).items == [Entry(first)];
    }
  }

  /** One submitted field that cannot be encoded makes the legacy document fail. */
  lemma LegacyDocStorableOnlyIf(body: Doc, created: Instant, logged: Instant, k: string)
    requires k in LegacyFields && !Storable(Get(body, k))
    ensures !DocStorable(LegacyDoc(body, created, logged))
  {
    assert LegacyDoc(body, created, logged)[k] == Get(body, k);
  }

  /**
   `create_case_legacy`: `collection.add` under the fresh id `docId`. The
   client encodes the document first, so an integer wider than 64 bits
   raises; `add` creates, so an id already in use is refused.
   */
  function CreateCaseLegacy(store: Collection, body: Value, docId: string, created: Instant, logged: Instant)
    : (r: Result<Created>)
    ensures r.Success? <==>
      body.Object? && (forall k :: k in LegacyFields ==> Storable(Get(body.fields, k))) && docId !in store
    ensures !body.Object? ==> r == Failure(BadRequest)
    ensures body.Object? && !(forall k :: k in LegacyFields ==> Storable(Get(body.fields, k))) ==> r == Failure(BadRequest)
    ensures body.Object? && (forall k :: k in LegacyFields ==> Storable(Get(body.fields, k))) && docId in store
            ==> r == Failure(Conflict)
    ensures r.Success? ==>
      && r.value.id == docId
      && r.value.store.Keys == store.Keys + {docId}
      && (forall k :: k in store ==> r.value.store[k] == store[k])
      && var d := r.value.store[docId];
      && Holds(d, "status", Str("Reported"))
      && Holds(d, "createdAt", Time(created))
      && "history" in d && d["history"].List? && |d["history"].items| == 1
      && d["history"].items[0].Object?
      && Holds(d["history"].items[0].fields, "action", Str("Report Submitted"))
      && Holds(d["history"].items[0].fields, "time", Time(logged))
  {
    match body
    case Object(fields) =>
      LegacyDocStorable(fields, created, logged);
      if !DocStorable(LegacyDoc(fields, created, logged)) then Failure(BadRequest)
      else if docId in store then Failure(Conflict)
      else Success(Created(store[docId := LegacyDoc(fields, created, logged)], docId))
    case _ => Failure(BadRequest)
  }

  /**
   The document a legacy handler updates: `data.get("caseID")`. A missing
   id makes `document()` pick a fresh id that names no document; a
   non-string id makes the path invalid.
   */
  function Target(store: Collection, body: Value): (r: Result<string>)
    ensures r.Success? <==> body.Object? && Get(body.fields, "caseID").Str? && Get(body.fields, "caseID").s in store
    ensures r.Success? ==> r.value in store && Get(body.fields, "caseID") == Str(r.value)
    ensures !body.Object? ==> r == Failure(BadRequest)
    ensures body.Object? && Get(body.fields, "caseID").Str? && Get(body.fields, "caseID").s !in store
            ==> r == Failure(NotFound)
    ensures body.Object? && Get(body.fields, "caseID").Null? ==> r == Failure(NotFound)
    ensures body.Object? && !Get(body.fields, "caseID").Str? && !Get(body.fields, "caseID").Null?
            ==> r == Failure(BadRequest)
  {
    if !body.Object? then Failure(BadRequest)
    else
      var v := Get(body.fields, "caseID");
      if v.Str? then (if v.s in store then Success(v.s) else Failure(NotFound))
      else if v.Null? then Failure(NotFound)
      else Failure(BadRequest)
  }

  /** A body naming an existing document targets it. */
  lemma TargetIs(store: Collection, id: string, fields: Doc)
    requires id in store && Holds(fields, "caseID", Str(id))
    ensures Target(store, Object(fields)) == Success(id)
  {
  }

  /** Two successive `update` calls on one document: merge `updates`, then union `entry` into `history`. */
  function UpdateWithHistory(store: Collection, id: string, updates: Doc, entry: Value): (t: Collection)
    requires id in store
    ensures t.Keys == store.Keys
    ensures forall k :: k in store && k != id ==> t[k] == store[k]
    ensures forall k :: k in store[id] && k !in updates && k != "history" ==> Holds(t[id], k, store[id][k])
    ensures "history" !in updates && "history" in store[id] && store[id]["history"].List?
            ==> History(store[id]) <= History(t[id])
  {
    var merged := store[id] + updates;
    store[id := merged["history" := ArrayUnion(Field(merged, "history"), entry)]]
  }

  /** The fields `assign_task` sets besides `history`. */
  function AssignUpdates(unit: Value, assignedAt: Instant): Doc {
    map["status" := Str("Assigned"), "assignedUnit" := unit, "assignedAt" := Time(assignedAt)]
  }

  /** The history entry `assign_task` adds. */
  function AssignEntry(unit: Value, logged: Instant): Value {
    Entry(map["action" := Str("Task Assigned"), "unit" := unit, "time" := Time(logged)])
  }

  /** Both writes of `assign_task` can be encoded exactly when the sent unit can. */
  lemma AssignStorable(unit: Value, assignedAt: Instant, logged: Instant)
    ensures DocStorable(AssignUpdates(unit, assignedAt)) && Storable(AssignEntry(unit, logged)) <==> Storable(unit)
  {
    assert AssignUpdates(unit, assignedAt)["assignedUnit"] == unit;
    assert AssignEntry(unit, logged).fields["unit"] == unit;
  }

  /**
   `assign_task`: status `Assigned`, the unit, the time, and one `Task
   Assigned` history entry. The client encodes each update before sending
   it, so a unit wider than 64 bits raises before a missing document is
   noticed.
   */
  function AssignTask(store: Collection, body: Value, assignedAt: Instant, logged: Instant): (r: Result<Collection>)
    ensures r.Success? <==> Target(store, body).Success? && Storable(Get(body.fields, "dedicatedUnitID"))
    ensures body.Object? && !Storable(Get(body.fields, "dedicatedUnitID")) ==> r == Failure(BadRequest)
    ensures body.Object? && Storable(Get(body.fields, "dedicatedUnitID")) && Target(store, body).Failure?
            ==> r == Failure(Target(store, body).error)
    ensures r.Success? ==>
      var id := Target(store, body).value;
      var unit := Get(body.fields, "dedicatedUnitID");
      && r.value.Keys == store.Keys
      && (forall k :: k in store && k != id ==> r.value[k] == store[k])
      && Holds(r.value[id], "status", Str("Assigned"))
      && Holds(r.value[id], "assignedUnit", unit)
      && Holds(r.value[id], "assignedAt", Time(assignedAt))
      && Logged(r.value[id], Entry(map["action" := Str("Task Assigned"), "unit" := unit, "time" := Time(logged)]))
      && (forall k :: k in store[id] && k !in AssignUpdates(unit, assignedAt) && k != "history"
            ==> Holds(r.value[id], k, store[id][k]))
      && ("history" in store[id] && store[id]["history"].List? ==> History(store[id]) <= History(r.value[id]))
  {
    match body
    case Object(fields) =>
      var unit := Get(fields, "dedicatedUnitID");
      if !Storable(unit) then Failure(BadRequest)
      else
        var id :- Target(store, body);
        Success(UpdateWithHistory(store, id, AssignUpdates(unit, assignedAt), AssignEntry(unit, logged)))
    case _ => Failure(BadRequest)
  }

  /** The sent progress notes and result details can be encoded. */
  predicate OutcomeStorable(body: Doc) {
    Storable(Get(body, "progressNotes")) && Storable(Get(body, "resultDetails"))
  }

  /**
   `process_case`: status `Completed`, the notes, the result, the time, and
   one `Case Processed` history entry. As for `assign_task`, notes or a
   result wider than 64 bits raise before a missing document is noticed.
   */
  function ProcessCase(store: Collection, body: Value, completed: Instant, logged: Instant): (r: Result<Collection>)
    ensures r.Success? <==> Target(store, body).Success? && OutcomeStorable(body.fields)
    ensures body.Object? && !OutcomeStorable(body.fields) ==> r == Failure(BadRequest)
    ensures body.Object? && OutcomeStorable(body.fields) && Target(store, body).Failure?
            ==> r == Failure(Target(store, body).error)
    ensures r.Success? ==>
      var id := Target(store, body).value;
      var notes := Get(body.fields, "progressNotes");
      var result := Get(body.fields, "resultDetails");
      && r.value.Keys == store.Keys
      && (forall k :: k in store && k != id ==> r.value[k] == store[k])
      && Holds(r.value[id], "status", Str("Completed"))
      && Holds(r.value[id], "progressNotes", notes)
      && Holds(r.value[id], "resultDetails", result)
      && Holds(r.value[id], "completedAt", Time(completed))
      && Logged(r.value[id], Entry(map["action" := Str("Case Processed"), "notes" := notes, "result" := result,
                                       "time" := Time(logged)]))
      && (forall k :: k in store[id] && k !in ProcessUpdates(notes, result, completed) && k != "history"
            ==> Holds(r.value[id], k, store[id][k]))
      && ("history" in store[id] && store[id]["history"].List? ==> History(store[id]) <= History(r.value[id]))
  {
    match body
    case Object(fields) =>
      var notes := Get(fields, "progressNotes");
      var result := Get(fields, "resultDetails");
      if !OutcomeStorable(fields) then Failure(BadRequest)
      else
        var id :- Target(store, body);
        Success(UpdateWithHistory(store, id, ProcessUpdates(notes, result, completed), ProcessEntry(notes, result, logged)))
    case _ => Failure(BadRequest)
  }

  /** Both writes of `process_case` can be encoded exactly when the sent notes and result can. */
  lemma ProcessStorable(notes: Value, result: Value, completed: Instant, logged: Instant)
    ensures DocStorable(ProcessUpdates(notes, result, completed)) && Storable(ProcessEntry(notes, result, logged))
            <==> Storable(notes) && Storable(result)
  {
    var u := ProcessUpdates(notes, result, completed);
    var e := ProcessEntry(notes, result, logged);
    assert u["progressNotes"] == notes && u["resultDetails"] == result;
    assert e.fields["notes"] == notes && e.fields["result"] == result;
  }

  /** The fields `process_case` sets besides `history`. */
  function ProcessUpdates(notes: Value, result: Value, completed: Instant): Doc {
    map["status" := Str("Completed"), "progressNotes" := notes, "resultDetails" := result,
        "completedAt" := Time(completed)]
  }

  /** The history entry `process_case` adds. */
  function ProcessEntry(notes: Value, result: Value, logged: Instant): Value {
    Entry(map["action" := Str("Case Processed"), "notes" := notes, "result" := result, "time" := Time(logged)])
  }

  /** The `action` of a history entry, or `null` if it has none. */
  function ActionOf(e: Value): Value {
    if e.Object? then Get(e.fields, "action") else Null
  }

  /** The entries of a document's `history` list; none if it has no list. */
  function History(d: Doc): seq<Value> {
    if "history" in d && d["history"].List? then d["history"].items else []
  }

  /**
   Updating a document that already has a history list, with fields other
   than `history` and an entry it does not hold yet, writes those fields,
   keeps every other field, and appends the entry.
   */
  lemma HistoryGrows(store: Collection, id: string, updates: Doc, entry: Value)
    requires id in store && "history" !in updates
    requires "history" in store[id] && store[id]["history"].List? && entry !in History(store[id])
    ensures var t := UpdateWithHistory(store, id, updates, entry);
      && History(t[id]) == History(store[id]) + [entry]
      && (forall k :: k in updates ==> Holds(t[id], k, updates[k]))
      && (forall k :: k in store[id] && k !in updates && k != "history" ==> Holds(t[id], k, store[id][k]))
  {
  }

  /** On a body naming an existing document and a storable unit, `assign_task` is the two `update` calls. */
  lemma AssignTaskOn(store: Collection, id: string, fields: Doc, assignedAt: Instant, logged: Instant)
    requires id in store && Holds(fields, "caseID", Str(id)) && Storable(Get(fields, "dedicatedUnitID"))
    ensures var unit := Get(fields, "dedicatedUnitID");
      AssignTask(store, Object(fields), assignedAt, logged)
      == Success(UpdateWithHistory(store, id, AssignUpdates(unit, assignedAt), AssignEntry(unit, logged)))
  {
    TargetIs(store, id, fields);
  }

  /** `assign_task` on a document with a history list and no `Task Assigned` entry appends one. */
  lemma AssignAppends(store: Collection, id: string, unit: Value, assignedAt: Instant, logged: Instant)
    requires id in store && "history" in store[id] && store[id]["history"].List?
    requires forall e :: e in History(store[id]) ==> ActionOf(e) != Str("Task Assigned")
    requires Storable(unit)
    ensures var r := AssignTask(store, Object(map["caseID" := Str(id), "dedicatedUnitID" := unit]), assignedAt, logged);
      var h := History(store[id]);
      && r.Success? && id in r.value
      && "history" in r.value[id] && r.value[id]["history"].List?
      && Holds(r.value[id], "assignedUnit", unit)
      && |History(r.value[id])| == |h| + 1
      && History(r.value[id])[..|h|] == h
      && ActionOf(History(r.value[id])[|h|]) == Str("Task Assigned")
  {
    var body := Object(map["caseID" := Str(id), "dedicatedUnitID" := unit]);
    var u := AssignUpdates(unit, assignedAt);
    var e := AssignEntry(unit, logged);
    assert Get(body.fields, "dedicatedUnitID") == unit;
    AssignTaskOn(store, id, body.fields, assignedAt, logged);
    assert "history" !in u by { assert u.Keys == {"status", "assignedUnit", "assignedAt"}; }
    assert ActionOf(e) == Str("Task Assigned");
    HistoryGrows(store, id, u, e);
  }

  /** The fields `process_case` writes besides `history`. */
  const ProcessFields: set<string> := {"status", "progressNotes", "resultDetails", "completedAt"}

  /** `process_case` leaves the history and assignment keys alone, and the three log actions are told apart. */
  lemma DistinctNames()
    ensures "history" !in ProcessFields && "assignedUnit" !in ProcessFields
    ensures "Report Submitted" != "Case Processed" && "Task Assigned" != "Case Processed"
  {
    assert |"history"| == 7 && |"assignedUnit"| == 12;
    assert |"Report Submitted"| != |"Case Processed"| && |"Task Assigned"| != |"Case Processed"|;
  }

  /** On a body naming an existing document and storable notes and result, `process_case` is the two `update` calls. */
  lemma ProcessCaseOn(store: Collection, id: string, fields: Doc, completed: Instant, logged: Instant)
    requires id in store && Holds(fields, "caseID", Str(id)) && OutcomeStorable(fields)
    ensures var notes := Get(fields, "progressNotes");
      var result := Get(fields, "resultDetails");
      ProcessCase(store, Object(fields), completed, logged)
      == Success(UpdateWithHistory(store, id, ProcessUpdates(notes, result, completed), ProcessEntry(notes, result, logged)))
  {
    TargetIs(store, id, fields);
  }

  /** `process_case` on a document with a history list and no `Case Processed` entry appends one and keeps the other fields. */
  lemma ProcessAppends(store: Collection, id: string, notes: Value, result: Value, completed: Instant, logged: Instant)
    requires id in store && "history" in store[id] && store[id]["history"].List?
    requires forall e :: e in History(store[id]) ==> ActionOf(e) != Str("Case Processed")
    requires Storable(notes) && Storable(result)
    ensures var r := ProcessCase(store, Object(map["caseID" := Str(id), "progressNotes" := notes, "resultDetails" := result]),
                                 completed, logged);
      var h := History(store[id]);
      && r.Success? && id in r.value
      && Holds(r.value[id], "status", Str("Completed"))
      && (forall k :: k in store[id] && k !in ProcessFields && k != "history" ==> Holds(r.value[id], k, store[id][k]))
      && |History(r.value[id])| == |h| + 1
      && History(r.value[id])[..|h|] == h
      && ActionOf(History(r.value[id])[|h|]) == Str("Case Processed")
  {
    var body := Object(map["caseID" := Str(id), "progressNotes" := notes, "resultDetails" := result]);
    var u := ProcessUpdates(notes, result, completed);
    var e := ProcessEntry(notes, result, logged);
    assert Get(body.fields, "progressNotes") == notes && Get(body.fields, "resultDetails") == result;
    ProcessCaseOn(store, id, body.fields, completed, logged);
    ProcessWrites(notes, result, completed, logged);
    HistoryGrows(store, id, u, e);
  }

  /** What `process_case` writes: the fields of `ProcessFields`, `Completed`, and a `Case Processed` entry. */
  lemma ProcessWrites(notes: Value, result: Value, completed: Instant, logged: Instant)
    ensures var u := ProcessUpdates(notes, result, completed);
      && u.Keys == ProcessFields && "history" !in u && Holds(u, "status", Str("Completed"))
      && ActionOf(ProcessEntry(notes, result, logged)) == Str("Case Processed")
  {
    DistinctNames();
  }

  /** Assigning a freshly reported case gives it a second history entry, `Task Assigned`. */
  lemma AssignAfterReport(s1: Collection, docId: string, unit: Value, t3: Instant, t4: Instant)
    requires docId in s1 && "history" in s1[docId] && s1[docId]["history"].List?
    requires |History(s1[docId])| == 1 && ActionOf(History(s1[docId])[0]) == Str("Report Submitted")
    requires Storable(unit)
    ensures var a := AssignTask(s1, Object(map["caseID" := Str(docId), "dedicatedUnitID" := unit]), t3, t4);
      && a.Success? && docId in a.value && "history" in a.value[docId] && a.value[docId]["history"].List?
      && Holds(a.value[docId], "assignedUnit", unit)
      && |History(a.value[docId])| == 2
      && ActionOf(History(a.value[docId])[0]) == Str("Report Submitted")
      && ActionOf(History(a.value[docId])[1]) == Str("Task Assigned")
  {
    AssignAppends(s1, docId, unit, t3, t4);
    var a := AssignTask(s1, Object(map["caseID" := Str(docId), "dedicatedUnitID" := unit]), t3, t4);
    var h2 := History(a.value[docId]);
    assert h2[0] == h2[..1][0];
  }

  /** Processing an assigned case completes it at the same unit and gives it a third history entry, `Case Processed`. */
  lemma ProcessAfterAssign(s2: Collection, docId: string, unit: Value, notes: Value, result: Value,
                           t5: Instant, t6: Instant)
    requires docId in s2 && "history" in s2[docId] && s2[docId]["history"].List?
    requires Holds(s2[docId], "assignedUnit", unit)
    requires |History(s2[docId])| == 2
    requires ActionOf(History(s2[docId])[0]) == Str("Report Submitted")
    requires ActionOf(History(s2[docId])[1]) == Str("Task Assigned")
    requires Storable(notes) && Storable(result)
    ensures var process := Object(map["caseID" := Str(docId), "progressNotes" := notes, "resultDetails" := result]);
      var p := ProcessCase(s2, process, t5, t6);
      && p.Success? && docId in p.value
      && Holds(p.value[docId], "status", Str("Completed"))
      && Holds(p.value[docId], "assignedUnit", unit)
      && |History(p.value[docId])| == 3
      && ActionOf(History(p.value[docId])[0]) == Str("Report Submitted")
      && ActionOf(History(p.value[docId])[1]) == Str("Task Assigned")
      && ActionOf(History(p.value[docId])[2]) == Str("Case Processed")
  {
    var process := Object(map["caseID" := Str(docId), "progressNotes" := notes, "resultDetails" := result]);
    var p := ProcessCase(s2, process, t5, t6);
    NotYetProcessed(History(s2[docId]));
    ProcessAppends(s2, docId, notes, result, t5, t6);
    var h3 := History(p.value[docId]);
    assert h3[0] == h3[..2][0] && h3[1] == h3[..2][1];
    DistinctNames();
  }

  /** A history of a report and an assignment holds no `Case Processed` entry. */
  lemma NotYetProcessed(h: seq<Value>)
    requires |h| == 2
    requires ActionOf(h[0]) == Str("Report Submitted") && ActionOf(h[1]) == Str("Task Assigned")
    ensures forall e :: e in h ==> ActionOf(e) != Str("Case Processed")
  {
    DistinctNames();
  }

  /**
   The legacy flow: a report is created, assigned to a unit and processed.
   The case ends `Completed` at that unit, and its history lists the three
   steps in order.
   */
  lemma {:induction false} LegacyFlow(store: Collection, report: Doc, docId: string, unit: Value,
                                      notes: Value, result: Value, t1: Instant, t2: Instant,
                                      t3: Instant, t4: Instant, t5: Instant, t6: Instant)
    requires docId !in store
    requires forall k :: k in LegacyFields ==> Storable(Get(report, k))
    requires Storable(unit) && Storable(notes) && Storable(result)
    ensures
      var c := CreateCaseLegacy(store, Object(report), docId, t1, t2);
      && c.Success? && c.value.id == docId
      && var assign := Object(map["caseID" := Str(docId), "dedicatedUnitID" := unit]);
      && var a := AssignTask(c.value.store, assign, t3, t4);
      && a.Success?
      && var process := Object(map["caseID" := Str(docId), "progressNotes" := notes, "resultDetails" := result]);
      && var p := ProcessCase(a.value, process, t5, t6);
      && p.Success?
      && docId in p.value
      && var d := p.value[docId];
      && Holds(d, "status", Str("Completed"))
      && Holds(d, "assignedUnit", unit)
      && |History(d)| == 3
      && ActionOf(History(d)[0]) == Str("Report Submitted")
      && ActionOf(History(d)[1]) == Str("Task Assigned")
      && ActionOf(History(d)[2]) == Str("Case Processed")
  {
    var c := CreateCaseLegacy(store, Object(report), docId, t1, t2);
    var s1: Collection := c.value.store;
    assert c.Success? && docId in s1 && "history" in s1[docId] && s1[docId]["history"].List?
      && |History(s1[docId])| == 1 && ActionOf(History(s1[docId])[0]) == Str("Report Submitted") by {
      assert s1[docId] == LegacyDoc(report, t1, t2);
    }
    AssignAfterReport(s1, docId, unit, t3, t4);
    var s2 := AssignTask(s1, Object(map["caseID" := Str(docId), "dedicatedUnitID" := unit]), t3, t4).value;
    ProcessAfterAssign(s2, docId, unit, notes, result, t5, t6);
  }
}

=== FILE: lifecycle.dfy ===
/**
 The case lifecycle of the relational web application: one transition
 function per request handler over an immutable store of tables.

 A handler that turns a request away (flash and redirect, 404, an exception
 before any write) returns `Failure` and leaves the store as it was. A
 handler that succeeds returns the whole new store, so each contract below
 also says what did NOT change. The source commits the case row and the
 notification in separate commits; the model applies both and makes no
 claim about a crash between them.
 */
module Lifecycle {
  import opened Common
  import opened Text
  import opened Clock
  import opened Models
  import opened CaseIds
  import opened Uploads

  /** flask_login's `current_user`. */
  datatype Session = Anonymous | SignedIn(user: User)

  /** The tables the handlers write. Attached rows refer to a case by its primary key. */
  datatype Store = Store(
    cases: seq<Case>,
    media: seq<MediaFile>,
    feedback: seq<Feedback>,
    notifications: seq<Notification>)

  /** The `type` tag of every notification the handlers write. */
  const NotificationKind: string := "app"

  /** Statuses in which the owner may no longer edit or cancel a case. */
  const LockedStatuses: set<CaseStatus> := {Accepted, InProgress, Completed}

  // ------------------------------------------------------------ messages

  function SubmittedMessage(cid: string): string {
    "案件 " + cid + " 已提交"
  }

  function CancelledMessage(cid: string): string {
    "案件 " + cid + " 已取消"
  }

  function AssignedMessage(cid: string, unitId: int): string {
    "案件 " + cid + " 已分派至單位 " + IntText(unitId)
  }

  function ReassignedMessage(cid: string, unitId: int): string {
    "案件 " + cid + " 已轉派至單位 " + IntText(unitId)
  }

  function StatusMessage(cid: string, status: CaseStatus): string {
    "案件 " + cid + " 狀態更新為 " + StatusName(status)
  }

  /** Every notification text names the case it is about. */
  lemma MessagesMentionCase(cid: string, unitId: int, status: CaseStatus)
    ensures Mentions(SubmittedMessage(cid), cid)
    ensures Mentions(CancelledMessage(cid), cid)
    ensures Mentions(AssignedMessage(cid, unitId), cid)
    ensures Mentions(ReassignedMessage(cid, unitId), cid)
    ensures Mentions(StatusMessage(cid, status), cid)
  {
    MentionsMiddle("案件 ", cid, " 已提交");
    MentionsMiddle("案件 ", cid, " 已取消");
    MentionsMiddle("案件 ", cid, " 已分派至單位 " + IntText(unitId));
    assert AssignedMessage(cid, unitId) == "案件 " + cid + (" 已分派至單位 " + IntText(unitId));
    MentionsMiddle("案件 ", cid, " 已轉派至單位 " + IntText(unitId));
    assert ReassignedMessage(cid, unitId) == "案件 " + cid + (" 已轉派至單位 " + IntText(unitId));
    MentionsMiddle("案件 ", cid, " 狀態更新為 " + StatusName(status));
    assert StatusMessage(cid, status) == "案件 " + cid + (" 狀態更新為 " + StatusName(status));
  }

  /** Appends one notification to `userId`. */
  function Notify(s: Store, userId: nat, message: string, now: Instant): Store {
    s.(notifications := s.notifications + [Notification(userId, message, now, NotificationKind)])
  }

  // ------------------------------------------------------------- lookup

  /** `filter_by(case_id=cid)`, plus `user_id=owner` when an owner is given. */
  predicate Matches(c: Case, cid: string, owner: Option<nat>) {
    c.caseId == cid && (owner.None? || c.userId == owner.value)
  }

  /** `.first()` of the filtered query: the first matching row. */
  function FindCase(cases: seq<Case>, cid: string, owner: Option<nat>): (r: Option<nat>)
    ensures r.Some? ==> r.value < |cases| && Matches(cases[r.value], cid, owner)
    ensures r.Some? ==> forall j :: 0 <= j < r.value ==> !Matches(cases[j], cid, owner)
    ensures r.None? ==> forall j :: 0 <= j < |cases| ==> !Matches(cases[j], cid, owner)
  {
    if |cases| == 0 then None
    else if Matches(cases[0], cid, owner) then Some(0)
    else match FindCase(cases[1..], cid, owner)
      case None => None
      case Some(k) => Some(k + 1)
  }

  predicate CaseIdTaken(cases: seq<Case>, cid: string) {
    exists i :: 0 <= i < |cases| && cases[i].caseId == cid
  }

  // ------------------------------------------------------------ invariant

  /**
   What every reachable store satisfies: primary keys are positional,
   `case_id` is unique, a case in progress has a unit, and attached rows
   refer to existing cases.
   */
  predicate WellFormed(s: Store) {
    && (forall i :: 0 <= i < |s.cases| ==> s.cases[i].id == i + 1)
    && (forall i, j :: 0 <= i < j < |s.cases| ==> s.cases[i].caseId != s.cases[j].caseId)
    && (forall i :: 0 <= i < |s.cases| && s.cases[i].status == InProgress ==> s.cases[i].assignedUnitId.Some?)
    && (forall k :: 0 <= k < |s.media| ==> 1 <= s.media[k].caseRef <= |s.cases|)
    && (forall k :: 0 <= k < |s.feedback| ==> 1 <= s.feedback[k].caseRef <= |s.cases|)
  }

  // -------------------------------------------------------------- forms

  /** A form value Python treats as true: present and not empty. */
  predicate Given(o: Option<string>) {
    o.Some? && o.value != ""
  }

  /** `float(x) if x else None` and `fromisoformat(x) if x else None`. */
  function ParsedIfGiven(o: Option<string>): (r: Option<Parsed>)
    ensures r.Some? <==> Given(o)
    ensures r.Some? ==> r.value.text == o.value
  {
    if Given(o) then Some(Parsed(o.value)) else None
  }

  /** One uploaded file: its client name, `secure_filename` of it, and the eight random hex digits of its saved name. */
  datatype Upload = Upload(filename: string, safeName: string, token: string)

  datatype NewCaseForm = NewCaseForm(
    description: Option<string>,
    locationText: Option<string>,
    latitude: Option<string>,
    longitude: Option<string>,
    incidentTime: Option<string>,
    eventType: Option<string>,
    uploads: seq<Upload>)

  /** `if f and allowed_file(f.filename)`: a file part is false when its name is empty. */
  predicate Keeps(u: Upload) {
    u.filename != "" && AllowedFile(u.filename)
  }

  /** The uploads `case_new` saves, in order. */
  function KeptUploads(ups: seq<Upload>): (r: seq<Upload>)
    ensures |r| <= |ups|
    ensures forall k :: 0 <= k < |r| ==> Keeps(r[k]) && r[k] in ups
    ensures forall k :: 0 <= k < |ups| && Keeps(ups[k]) ==> ups[k] in r
  {
    if |ups| == 0 then []
    else
      var rest := KeptUploads(ups[1..]);
      assert forall k :: 1 <= k < |ups| ==> ups[k] == ups[1..][k - 1];
      if Keeps(ups[0]) then [ups[0]] + rest else rest
  }

  /** Each kept upload is saved as often as it was sent; the others are not saved. */
  lemma {:induction false} KeptUploadsCount(ups: seq<Upload>, u: Upload)
    ensures multiset(KeptUploads(ups))[u] == if Keeps(u) then multiset(ups)[u] else 0
    decreases |ups|
  {
    if |ups| > 0 {
      assert ups == [ups[0]] + ups[1..];
      KeptUploadsCount(ups[1..], u);
      if Keeps(ups[0]) {
        assert KeptUploads(ups) == [ups[0]] + KeptUploads(ups[1..]);
      } else {
        assert KeptUploads(ups) == KeptUploads(ups[1..]);
      }
    }
  }

  /** Filtering respects order: the uploads kept from `a + b` are those kept from `a`, then those kept from `b`. */
  lemma {:induction false} KeptUploadsAppend(a: seq<Upload>, b: seq<Upload>)
    ensures KeptUploads(a + b) == KeptUploads(a) + KeptUploads(b)
    decreases |a|
  {
    if |a| > 0 {
      assert (a + b)[1..] == a[1..] + b;
      KeptUploadsAppend(a[1..], b);
    } else {
      assert a + b == b;
    }
  }

  function MediaRow(u: Upload, caseRef: nat, cid: string, now: Instant): MediaFile {
    MediaFile(caseRef, cid + "_" + u.token + "_" + u.safeName, KindName(KindOf(u.safeName)), now)
  }

  /** A media row's path starts with the case identifier, and its type is `image` or `video`. */
  lemma MediaRowFacts(u: Upload, caseRef: nat, cid: string, now: Instant)
    ensures var row := MediaRow(u, caseRef, cid, now);
      row.caseRef == caseRef && Mentions(row.filePath, cid) && row.fileType in {"image", "video"}
    ensures var row := MediaRow(u, caseRef, cid, now);
      row.fileType == "video" <==> EndsWith(LowerStr(u.safeName), "mp4") || EndsWith(LowerStr(u.safeName), "mov")
  {
    var path := MediaRow(u, caseRef, cid, now).filePath;
    assert StartsWith(path, cid) by {
      assert StartsWith(cid, cid);
      StartsWithAppend(cid, "_", cid);
      StartsWithAppend(cid + "_", u.token, cid);
      StartsWithAppend(cid + "_" + u.token, "_", cid);
      StartsWithAppend(cid + "_" + u.token + "_", u.safeName, cid);
    }
    MentionsStart(path, cid);
    KindNames(KindOf(u.safeName));
  }

  /** One media row per kept upload, attached to case `caseRef`. */
  function MediaRows(ups: seq<Upload>, caseRef: nat, cid: string, now: Instant): (rows: seq<MediaFile>)
    ensures |rows| == |KeptUploads(ups)|
    ensures forall k :: 0 <= k < |rows| ==> rows[k].caseRef == caseRef && Mentions(rows[k].filePath, cid)
    ensures forall k :: 0 <= k < |rows| ==> rows[k].fileType in {"image", "video"}
    ensures forall k :: 0 <= k < |rows| ==>
      var name := LowerStr(KeptUploads(ups)[k].safeName);
      rows[k].fileType == "video" <==> EndsWith(name, "mp4") || EndsWith(name, "mov")
  {
    var kept := KeptUploads(ups);
    var rows := seq(|kept|, k requires 0 <= k < |kept| => MediaRow(kept[k], caseRef, cid, now));
    forall k | 0 <= k < |rows|
      ensures rows[k].caseRef == caseRef && Mentions(rows[k].filePath, cid) && rows[k].fileType in {"image", "video"}
      ensures var name := LowerStr(kept[k].safeName);
        rows[k].fileType == "video" <==> EndsWith(name, "mp4") || EndsWith(name, "mov")
    {
      MediaRowFacts(kept[k], caseRef, cid, now);
    }
    rows
  }

  // ---------------------------------------------------------- case_new

  /** The row `case_new` inserts for a validated form. */
  function SubmittedCase(id: nat, cid: string, form: NewCaseForm, userId: nat, now: Instant): Case
    requires Given(form.description) && Given(form.eventType)
  {
    NewCase(id, cid, form.description.value, userId, now).(
      locationText := form.locationText,
      latitude := ParsedIfGiven(form.latitude),
      longitude := ParsedIfGiven(form.longitude),
      incidentTime := ParsedIfGiven(form.incidentTime),
      eventType := form.eventType,
      status := Submitted)
  }

  /**
   The clock readings one `case_new` takes, in order: `utcnow()` for the
   identifier, then the `utcnow` column defaults at the commits of the case,
   of its media rows, and of its notification.
   */
  datatype CaseClock = CaseClock(stamp: Instant, reported: Instant, uploaded: Instant, notified: Instant)

  /**
   Reporting a case: validate, insert the case under a fresh identifier, save
   the accepted uploads, and notify the reporter. A clash of the generated
   identifier with an existing one fails the first commit.
   */
  function CaseNew(s: Store, session: Session, form: NewCaseForm, clock: CaseClock, token: Hex4): (r: Result<Store>)
    requires clock.stamp.year >= 1000
    ensures session.Anonymous? ==> r == Failure(LoginRequired)
    ensures session.SignedIn? && !(Given(form.description) && Given(form.eventType)) ==> r == Failure(Invalid)
    ensures r.Success? <==>
      session.SignedIn? && Given(form.description) && Given(form.eventType)
      && !CaseIdTaken(s.cases, MakeCaseId(clock.stamp, token))
    ensures r.Success? ==>
      var n := |s.cases|;
      && |r.value.cases| == n + 1 && r.value.cases[..n] == s.cases
      && var c := r.value.cases[n];
      && c.id == n + 1
      && c.caseId == MakeCaseId(clock.stamp, token)
      && c.status == Submitted && c.userId == session.user.id
      && c.description == form.description.value && c.eventType == form.eventType
      && c.locationText == form.locationText
      && c.latitude == ParsedIfGiven(form.latitude) && c.longitude == ParsedIfGiven(form.longitude)
      && c.incidentTime == ParsedIfGiven(form.incidentTime) && c.attributeId == None
      && !c.isFake && c.assignedUnitId == None && c.reportTime == clock.reported
      && r.value.media == s.media + MediaRows(form.uploads, n + 1, c.caseId, clock.uploaded)
      && r.value.feedback == s.feedback
      && r.value.notifications
         == s.notifications + [Notification(session.user.id, SubmittedMessage(c.caseId), clock.notified, NotificationKind)]
  {
    if session.Anonymous? then Failure(LoginRequired)
    else if !(Given(form.description) && Given(form.eventType)) then Failure(Invalid)
    else
      var cid := MakeCaseId(clock.stamp, token);
      if CaseIdTaken(s.cases, cid) then Failure(IntegrityError)
      else
        var id := |s.cases| + 1;
        var c := SubmittedCase(id, cid, form, session.user.id, clock.reported);
        var t := s.(cases := s.cases + [c], media := s.media + MediaRows(form.uploads, id, cid, clock.uploaded));
        Success(Notify(t, session.user.id, SubmittedMessage(cid), clock.notified))
  }

  // --------------------------------------------------------- case_edit

  datatype EditForm = EditForm(
    action: Option<string>,
    description: Option<string>,
    locationText: Option<string>,
    latitude: Option<string>,
    longitude: Option<string>)

  /** Each editable field takes the submitted value when one is given, else keeps the stored one. */
  function MergeFields(c: Case, f: EditForm): Case {
    c.(description := if Given(f.description) then f.description.value else c.description,
       locationText := if Given(f.locationText) then f.locationText else c.locationText,
       latitude := if Given(f.latitude) then ParsedIfGiven(f.latitude) else c.latitude,
       longitude := if Given(f.longitude) then ParsedIfGiven(f.longitude) else c.longitude)
  }

  /** The editable fields of `c` and `d` may differ; all other columns agree. */
  predicate SameExceptEditable(c: Case, d: Case) {
    d.(description := c.description, locationText := c.locationText,
       latitude := c.latitude, longitude := c.longitude) == c
  }

  /**
   The owner's edit form: rejected once the case is accepted, in progress or
   completed; otherwise either a cancellation (back to draft, reporter
   notified) or a field update.
   */
  function CaseEdit(s: Store, session: Session, cid: string, form: EditForm, now: Instant): (r: Result<Store>)
    ensures session.Anonymous? ==> r == Failure(LoginRequired)
    ensures session.SignedIn? && FindCase(s.cases, cid, Some(session.user.id)).None? ==> r == Failure(NotFound)
    ensures session.SignedIn? && FindCase(s.cases, cid, Some(session.user.id)).Some? ==>
      var i := FindCase(s.cases, cid, Some(session.user.id)).value;
      var c := s.cases[i];
      && (c.status in LockedStatuses ==> r == Failure(Locked))
      && (c.status !in LockedStatuses && form.action == Some("cancel") ==>
            && r.Success?
            && r.value.cases == s.cases[i := c.(status := Draft)]
            && r.value.notifications
               == s.notifications + [Notification(c.userId, CancelledMessage(cid), now, NotificationKind)]
            && r.value.media == s.media && r.value.feedback == s.feedback)
      && (c.status !in LockedStatuses && form.action != Some("cancel") ==>
            && r.Success?
            && |r.value.cases| == |s.cases|
            && (forall j :: 0 <= j < |s.cases| && j != i ==> r.value.cases[j] == s.cases[j])
            && SameExceptEditable(c, r.value.cases[i])
            && (Given(form.description) ==> r.value.cases[i].description == form.description.value)
            && (!Given(form.description) ==> r.value.cases[i].description == c.description)
            && (Given(form.locationText) ==> r.value.cases[i].locationText == form.locationText)
            && (!Given(form.locationText) ==> r.value.cases[i].locationText == c.locationText)
            && (Given(form.latitude) ==> r.value.cases[i].latitude == Some(Parsed(form.latitude.value)))
            && (!Given(form.latitude) ==> r.value.cases[i].latitude == c.latitude)
            && (Given(form.longitude) ==> r.value.cases[i].longitude == Some(Parsed(form.longitude.value)))
            && (!Given(form.longitude) ==> r.value.cases[i].longitude == c.longitude)
            && r.value.notifications == s.notifications
            && r.value.media == s.media && r.value.feedback == s.feedback)
  {
    if session.Anonymous? then Failure(LoginRequired)
    else match FindCase(s.cases, cid, Some(session.user.id))
      case None => Failure(NotFound)
      case Some(i) =>
        var c := s.cases[i];
        if c.status in LockedStatuses then Failure(Locked)
        else if form.action == Some("cancel") then
          Success(Notify(s.(cases := s.cases[i := c.(status := Draft)]), session.user.id, CancelledMessage(c.caseId), now))
        else
          Success(s.(cases := s.cases[i := MergeFields(c, form)]))
  }

  // ----------------------------------------------------- case_feedback

  /**
   The owner's rating: stored when it lies in 1..5, whatever the case's
   status and however many ratings the case already has. A missing rating
   field reads as 0; a missing comment as the empty string.
   */
  function CaseFeedback(s: Store, session: Session, cid: string, rating: Option<int>,
                        comments: Option<string>, now: Instant): (r: Result<Store>)
    ensures session.Anonymous? ==> r == Failure(LoginRequired)
    ensures r.Success? <==>
      && session.SignedIn?
      && FindCase(s.cases, cid, Some(session.user.id)).Some?
      && 1 <= rating.GetOr(0) <= 5
    ensures (session.SignedIn? && FindCase(s.cases, cid, Some(session.user.id)).Some?
             && !(1 <= rating.GetOr(0) <= 5)) ==> r == Failure(Invalid)
    ensures r.Success? ==>
      var c := s.cases[FindCase(s.cases, cid, Some(session.user.id)).value];
      && r.value.feedback
         == s.feedback + [Feedback(c.id, Some(rating.GetOr(0)), Some(comments.GetOr("")), now)]
      && r.value.cases == s.cases && r.value.media == s.media
      && r.value.notifications == s.notifications
  {
    if session.Anonymous? then Failure(LoginRequired)
    else match FindCase(s.cases, cid, Some(session.user.id))
      case None => Failure(NotFound)
      case Some(i) =>
        var score := rating.GetOr(0);
        if score < 1 || score > 5 then Failure(Invalid)
        else Success(s.(feedback := s.feedback + [Feedback(s.cases[i].id, Some(score), Some(comments.GetOr("")), now)]))
  }

  // ------------------------------------------------- admin_case_review

  /** `admin_required`: an authenticated user whose role is exactly `"admin"`. */
  predicate IsAdmin(session: Session) {
    session.SignedIn? && session.user.role == RoleName(AdminRole)
  }

  // ------------------------------------------------- admin_dashboard

  /**
   The `create_unit` action of the admin dashboard. Only administrators get
   this far, and a missing or empty `unit_name` writes nothing. Any other name
   is committed, so a name already in use fails its unique constraint. The
   handler touches only the unit table, which is its own argument here.
   */
  function AdminCreateUnit(units: seq<Unit>, session: Session, name: Option<string>): (r: Result<seq<Unit>>)
    requires UnitNamesUnique(units)
    ensures session.Anonymous? ==> r == Failure(LoginRequired)
    ensures session.SignedIn? && !IsAdmin(session) ==> r == Failure(Forbidden)
    ensures IsAdmin(session) && (name.None? || name == Some("")) ==> r == Success(units)
    ensures IsAdmin(session) && name.Some? && name.value != "" ==>
      (r.Success? <==> !UnitNameTaken(units, name.value))
    ensures r.Failure? ==> r.error in {LoginRequired, Forbidden, IntegrityError}
    ensures r.Success? ==> && UnitNamesUnique(r.value)
                           && |units| <= |r.value| <= |units| + 1 && r.value[..|units|] == units
    ensures r.Success? ==> forall k :: |units| <= k < |r.value| ==>
      name == Some(r.value[k].unitName) && r.value[k].unitName != "" && r.value[k].isActive
  {
    if session.Anonymous? then Failure(LoginRequired)
    else if !IsAdmin(session) then Failure(Forbidden)
    else match name
      case None => Success(units)
      case Some(n) => if n == "" then Success(units) else InsertUnit(units, name)
  }

  /** The case at index `i` is sent to unit `unitId` and put in progress. */
  function Assign(s: Store, i: nat, unitId: int): Store
    requires i < |s.cases|
  {
    s.(cases := s.cases[i := s.cases[i].(assignedUnitId := Some(unitId), status := InProgress)])
  }

  /**
   An administrator's review action, with every change committed:
   `mark_fake` flags the case, `accept` accepts it, `assign` sends it to a
   unit and notifies the reporter, `complete` closes it and notifies the
   reporter; any other action changes nothing. No action checks the current
   status or whether the unit exists. `unitId` is the `unit_id` field as
   `int()` reads it: `None` when it is missing or not an integer, which
   raises before anything is written.
   */
  function AdminCaseReview(s: Store, session: Session, cid: string, action: Option<string>,
                           unitId: Option<int>, now: Instant): (r: Result<Store>)
    ensures session.Anonymous? ==> r == Failure(LoginRequired)
    ensures session.SignedIn? && !IsAdmin(session) ==> r == Failure(Forbidden)
    ensures IsAdmin(session) && FindCase(s.cases, cid, None).None? ==> r == Failure(NotFound)
    ensures IsAdmin(session) && FindCase(s.cases, cid, None).Some? ==>
      var i := FindCase(s.cases, cid, None).value;
      var c := s.cases[i];
      && (action == Some("mark_fake") ==> r == Success(s.(cases := s.cases[i := c.(isFake := true)])))
      && (action == Some("accept") ==> r == Success(s.(cases := s.cases[i := c.(status := Accepted)])))
      && (action == Some("assign") && !(unitId.Some? && FitsInteger(unitId.value)) ==> r == Failure(BadRequest))
      && (action == Some("assign") && unitId.Some? && FitsInteger(unitId.value) ==>
            && r.Success?
            && r.value.cases == s.cases[i := c.(assignedUnitId := unitId, status := InProgress)]
            && r.value.notifications
               == s.notifications + [Notification(c.userId, AssignedMessage(cid, unitId.value), now, NotificationKind)]
            && r.value.media == s.media && r.value.feedback == s.feedback)
      && (action == Some("complete") ==>
            && r.Success?
            && r.value.cases == s.cases[i := c.(status := Completed)]
            && r.value.notifications
               == s.notifications + [Notification(c.userId, StatusMessage(cid, Completed), now, NotificationKind)]
            && r.value.media == s.media && r.value.feedback == s.feedback)
      && (action !in {Some("mark_fake"), Some("accept"), Some("assign"), Some("complete")} ==> r == Success(s))
  {
    if session.Anonymous? then Failure(LoginRequired)
    else if !IsAdmin(session) then Failure(Forbidden)
    else match FindCase(s.cases, cid, None)
      case None => Failure(NotFound)
      case Some(i) =>
        var c := s.cases[i];
        if action == Some("mark_fake") then Success(s.(cases := s.cases[i := c.(isFake := true)]))
        else if action == Some("accept") then Success(s.(cases := s.cases[i := c.(status := Accepted)]))
        else if action == Some("assign") then
          match unitId
          case None => Failure(BadRequest)
          case Some(u) =>
            if !FitsInteger(u) then Failure(BadRequest)
            else Success(Notify(Assign(s, i, u), c.userId, AssignedMessage(c.caseId, u), now))
        else if action == Some("complete") then
          var t := s.(cases := s.cases[i := c.(status := Completed)]);
          Success(Notify(t, c.userId, StatusMessage(c.caseId, Completed), now))
        else Success(s)
  }

  /**
   The review handler as the source has it: `mark_fake` and `accept` change
   the loaded row but never commit, so the request's session is discarded
   with the change; the other actions commit.
   */
  function AdminCaseReviewAsWritten(s: Store, session: Session, cid: string, action: Option<string>,
                                    unitId: Option<int>, now: Instant): (r: Result<Store>)
    ensures action == Some("mark_fake") || action == Some("accept") ==> r.Success? ==> r.value == s
    ensures r.Success? <==> AdminCaseReview(s, session, cid, action, unitId, now).Success?
    ensures action != Some("mark_fake") && action != Some("accept") ==>
      r == AdminCaseReview(s, session, cid, action, unitId, now)
  {
    var committed := AdminCaseReview(s, session, cid, action, unitId, now);
    if (action == Some("mark_fake") || action == Some("accept")) && committed.Success? then Success(s)
    else committed
  }

  /** As written, flagging a case that is not yet flagged leaves it unflagged; the committed handler flags it. */
  lemma MarkFakeIsLost(s: Store, session: Session, cid: string, unitId: Option<int>, now: Instant)
    requires IsAdmin(session) && FindCase(s.cases, cid, None).Some?
    requires !s.cases[FindCase(s.cases, cid, None).value].isFake
    ensures AdminCaseReviewAsWritten(s, session, cid, Some("mark_fake"), unitId, now) == Success(s)
    ensures var r := AdminCaseReview(s, session, cid, Some("mark_fake"), unitId, now);
      r.Success? && r.value.cases[FindCase(s.cases, cid, None).value].isFake && r.value != s
  {
  }

  /** As written, accepting a case that is not yet accepted leaves its status; the committed handler accepts it. */
  lemma AcceptIsLost(s: Store, session: Session, cid: string, unitId: Option<int>, now: Instant)
    requires IsAdmin(session) && FindCase(s.cases, cid, None).Some?
    requires s.cases[FindCase(s.cases, cid, None).value].status != Accepted
    ensures AdminCaseReviewAsWritten(s, session, cid, Some("accept"), unitId, now) == Success(s)
    ensures var r := AdminCaseReview(s, session, cid, Some("accept"), unitId, now);
      r.Success? && r.value.cases[FindCase(s.cases, cid, None).value].status == Accepted && r.value != s
  {
  }

  // ------------------------------------------------------ unit_reassign

  /** `current_user.role == Role.UNIT`: exactly the `"unit"` role; administrators are refused. */
  predicate IsUnit(session: Session) {
    session.SignedIn? && session.user.role == RoleName(UnitRole)
  }

  /**
   A unit account hands any case to another unit: in progress, reporter
   notified. As for review, `unitId` is `None` when `int()` rejects the field.
   */
  function UnitReassign(s: Store, session: Session, cid: string, unitId: Option<int>, now: Instant): (r: Result<Store>)
    ensures session.Anonymous? ==> r == Failure(LoginRequired)
    ensures session.SignedIn? && !IsUnit(session) ==> r == Failure(Forbidden)
    ensures IsUnit(session) && FindCase(s.cases, cid, None).None? ==> r == Failure(NotFound)
    ensures IsUnit(session) && FindCase(s.cases, cid, None).Some? ==>
      var i := FindCase(s.cases, cid, None).value;
      var c := s.cases[i];
      && (!(unitId.Some? && FitsInteger(unitId.value)) ==> r == Failure(BadRequest))
      && (unitId.Some? && FitsInteger(unitId.value) ==>
            && r.Success?
            && r.value.cases == s.cases[i := c.(assignedUnitId := unitId, status := InProgress)]
            && r.value.notifications
               == s.notifications + [Notification(c.userId, ReassignedMessage(cid, unitId.value), now, NotificationKind)]
            && r.value.media == s.media && r.value.feedback == s.feedback)
  {
    if session.Anonymous? then Failure(LoginRequired)
    else if !IsUnit(session) then Failure(Forbidden)
    else match FindCase(s.cases, cid, None)
      case None => Failure(NotFound)
      case Some(i) =>
        match unitId
        case None => Failure(BadRequest)
        case Some(u) =>
          if !FitsInteger(u) then Failure(BadRequest)
          else Success(Notify(Assign(s, i, u), s.cases[i].userId, ReassignedMessage(s.cases[i].caseId, u), now))
  }

  // ----------------------------------------------------- unit_dashboard

  /** The cases whose assigned unit id equals `id`, in table order. */
  function AssignedTo(cases: seq<Case>, id: int): (r: seq<Case>)
    ensures |r| <= |cases|
    ensures forall c :: c in r <==> c in cases && c.assignedUnitId == Some(id)
    ensures forall c :: multiset(r)[c] == if c.assignedUnitId == Some(id) then multiset(cases)[c] else 0
  {
    if |cases| == 0 then []
    else
      var rest := AssignedTo(cases[1..], id);
      assert cases == [cases[0]] + cases[1..];
      assert forall c :: c in cases <==> c == cases[0] || c in cases[1..];
      assert multiset(cases) == multiset{cases[0]} + multiset(cases[1..]);
      if cases[0].assignedUnitId == Some(id) then [cases[0]] + rest else rest
  }

  /** The filter keeps table order: the rows selected from `a + b` are those selected from `a`, then those from `b`. */
  lemma {:induction false} AssignedToAppend(a: seq<Case>, b: seq<Case>, id: int)
    ensures AssignedTo(a + b, id) == AssignedTo(a, id) + AssignedTo(b, id)
    decreases |a|
  {
    if |a| > 0 {
      assert (a + b)[0] == a[0] && (a + b)[1..] == a[1..] + b;
      AssignedToAppend(a[1..], b, id);
    } else {
      assert a + b == b;
    }
  }

  /**
   The unit dashboard's case list: every case for an administrator; for a
   unit account, the cases whose assigned unit id equals the account's own
   user id (the query compares a unit key with a user key).
   */
  function UnitDashboard(s: Store, session: Session): (r: Result<seq<Case>>)
    ensures session.Anonymous? ==> r == Failure(LoginRequired)
    ensures session.SignedIn? && !IsAdmin(session) && !IsUnit(session) ==> r == Failure(Forbidden)
    ensures IsAdmin(session) ==> r == Success(s.cases)
    ensures IsUnit(session) ==>
      && r.Success?
      && (forall c :: c in r.value <==> c in s.cases && c.assignedUnitId == Some(session.user.id))
      && (forall c :: multiset(r.value)[c] == if c.assignedUnitId == Some(session.user.id) then multiset(s.cases)[c] else 0)
  {
    if session.Anonymous? then Failure(LoginRequired)
    else if IsAdmin(session) then Success(s.cases)
    else if IsUnit(session) then Success(AssignedTo(s.cases, session.user.id))
    else Failure(Forbidden)
  }
}

=== FILE: lifecycle_props.dfy ===
/**
 Properties of the case lifecycle across requests: every handler keeps the
 store well formed, the notification, feedback and media tables only grow,
 a case keeps its identity and owner and, once assigned, stays assigned,
 and every notification names a case of the person it is addressed to.
 */
module LifecycleProperties {
  import opened Common
  import opened Text
  import opened Clock
  import opened Models
  import opened CaseIds
  import opened Lifecycle

  /** One request to a state-changing handler. */
  datatype Request =
    | SubmitCase(form: NewCaseForm, token: Hex4, clock: CaseClock)
    | EditCase(caseId: string, edit: EditForm)
    | RateCase(caseId: string, rating: Option<int>, comments: Option<string>)
    | ReviewCase(caseId: string, action: Option<string>, unitId: Option<int>)
    | ReassignCase(caseId: string, unitId: Option<int>)

  /**
   A request as it arrives: who sent it, what it asks, and when. A new case
   carries the several clock readings its handler takes.
   */
  datatype Call = Call(session: Session, request: Request, now: Instant)

  /** Case identifiers are generated with four-digit years. */
  predicate Feasible(c: Call) {
    c.request.SubmitCase? ==> c.request.clock.stamp.year >= 1000
  }

  function Step(s: Store, c: Call): Result<Store>
    requires Feasible(c)
  {
    match c.request
    case SubmitCase(form, token, clock) => CaseNew(s, c.session, form, clock, token)
    case EditCase(cid, edit) => CaseEdit(s, c.session, cid, edit, c.now)
    case RateCase(cid, rating, comments) => CaseFeedback(s, c.session, cid, rating, comments, c.now)
    case ReviewCase(cid, action, unitId) => AdminCaseReviewAsWritten(s, c.session, cid, action, unitId, c.now)
    case ReassignCase(cid, unitId) => UnitReassign(s, c.session, cid, unitId, c.now)
  }

  /** The store after a call: the new one, or the old one when the call was turned away. */
  function After(s: Store, c: Call): Store
    requires Feasible(c)
  {
    match Step(s, c)
    case Success(t) => t
    case Failure(_) => s
  }

  /** The store after a sequence of calls, applied in order. */
  function Run(s: Store, calls: seq<Call>): Store
    requires forall k :: 0 <= k < |calls| ==> Feasible(calls[k])
    decreases |calls|
  {
    if |calls| == 0 then s else Run(After(s, calls[0]), calls[1..])
  }

  // ------------------------------------------------------------ evolution

  /** What no request undoes: logs only grow, cases keep identity and owner, assignments are never cleared. */
  predicate Evolves(s: Store, t: Store) {
    && |s.cases| <= |t.cases|
    && s.notifications <= t.notifications
    && s.feedback <= t.feedback
    && s.media <= t.media
    && forall i :: 0 <= i < |s.cases| ==>
         && t.cases[i].id == s.cases[i].id
         && t.cases[i].caseId == s.cases[i].caseId
         && t.cases[i].userId == s.cases[i].userId
         && t.cases[i].reportTime == s.cases[i].reportTime
         && (s.cases[i].assignedUnitId.Some? ==> t.cases[i].assignedUnitId.Some?)
  }

  lemma EvolvesTransitive(s: Store, t: Store, u: Store)
    requires Evolves(s, t) && Evolves(t, u)
    ensures Evolves(s, u)
  {
  }

  /** A notification is about case `c`: it goes to the case's owner and names the case. */
  predicate About(n: Notification, c: Case) {
    n.userId == c.userId && Mentions(n.message, c.caseId)
  }

  /** Some case of `cases` is the subject of notification `n`. */
  predicate Covered(n: Notification, cases: seq<Case>) {
    exists i :: 0 <= i < |cases| && About(n, cases[i])
  }

  /** Every notification is about some case in the store. */
  predicate Traceable(s: Store) {
    forall k :: 0 <= k < |s.notifications| ==> Covered(s.notifications[k], s.cases)
  }

  /** A notification about an old case is still about that case after an evolution. */
  lemma CoveredKept(n: Notification, s: Store, t: Store)
    requires Covered(n, s.cases) && Evolves(s, t)
    ensures Covered(n, t.cases)
  {
    var i :| 0 <= i < |s.cases| && About(n, s.cases[i]);
    assert About(n, t.cases[i]);
  }

  /** Traceability survives an evolution that appends nothing to the notifications. */
  lemma TraceableKept(s: Store, t: Store)
    requires Traceable(s) && Evolves(s, t) && t.notifications == s.notifications
    ensures Traceable(t)
  {
    forall k | 0 <= k < |t.notifications|
      ensures Covered(t.notifications[k], t.cases)
    {
      CoveredKept(s.notifications[k], s, t);
    }
  }

  /** Traceability survives an evolution that appends one notification about case `i`. */
  lemma TraceableExtended(s: Store, t: Store, i: nat)
    requires Traceable(s) && Evolves(s, t)
    requires |t.notifications| == |s.notifications| + 1
    requires i < |t.cases| && About(t.notifications[|s.notifications|], t.cases[i])
    ensures Traceable(t)
  {
    forall k | 0 <= k < |t.notifications|
      ensures Covered(t.notifications[k], t.cases)
    {
      if k < |s.notifications| {
        assert t.notifications[k] == s.notifications[k];
        CoveredKept(s.notifications[k], s, t);
      }
    }
  }

  // ---------------------------------------------- uniqueness and lookup

  /** With unique identifiers, a case is found at its own index. */
  lemma FindUnique(s: Store, i: nat)
    requires WellFormed(s) && i < |s.cases|
    ensures FindCase(s.cases, s.cases[i].caseId, None) == Some(i)
    ensures FindCase(s.cases, s.cases[i].caseId, Some(s.cases[i].userId)) == Some(i)
  {
  }

  // ------------------------------------------------------- per handler

  /** Appending a fresh case, its media rows and one notification about it keeps the invariant. */
  lemma AppendCaseKeeps(s: Store, t: Store)
    requires WellFormed(s) && Traceable(s)
    requires |t.cases| == |s.cases| + 1 && t.cases[..|s.cases|] == s.cases
    requires t.cases[|s.cases|].id == |s.cases| + 1
    requires t.cases[|s.cases|].status != InProgress
    requires !CaseIdTaken(s.cases, t.cases[|s.cases|].caseId)
    requires |s.media| <= |t.media| && t.media[..|s.media|] == s.media
    requires forall k :: |s.media| <= k < |t.media| ==> t.media[k].caseRef == |s.cases| + 1
    requires t.feedback == s.feedback
    requires |t.notifications| == |s.notifications| + 1 && t.notifications[..|s.notifications|] == s.notifications
    requires About(t.notifications[|s.notifications|], t.cases[|s.cases|])
    ensures WellFormed(t) && Evolves(s, t) && Traceable(t)
  {
    var n := |s.cases|;
    assert forall i :: 0 <= i < n ==> t.cases[i] == s.cases[i];
    assert forall k :: 0 <= k < |s.media| ==> t.media[k] == s.media[k];
    assert s.notifications <= t.notifications;
    assert s.media <= t.media;
    TraceableExtended(s, t, n);
  }

  /** Rows that all refer to case `ref`, appended to a table, are the rows of the new tail. */
  lemma RowsAppended(media: seq<MediaFile>, rows: seq<MediaFile>, ref: nat)
    requires forall j :: 0 <= j < |rows| ==> rows[j].caseRef == ref
    ensures (media + rows)[..|media|] == media
    ensures forall k :: |media| <= k < |media + rows| ==> (media + rows)[k].caseRef == ref
  {
    forall k | |media| <= k < |media + rows|
      ensures (media + rows)[k].caseRef == ref
    {
      assert (media + rows)[k] == rows[k - |media|];
    }
  }

  lemma CaseNewKeeps(s: Store, session: Session, form: NewCaseForm, clock: CaseClock, token: Hex4)
    requires clock.stamp.year >= 1000
    requires WellFormed(s) && Traceable(s)
    ensures var r := CaseNew(s, session, form, clock, token);
      r.Success? ==> WellFormed(r.value) && Evolves(s, r.value) && Traceable(r.value)
  {
    var r := CaseNew(s, session, form, clock, token);
    if r.Success? {
      var t := r.value;
      var n := |s.cases|;
      var cid := MakeCaseId(clock.stamp, token);
      var rows := MediaRows(form.uploads, n + 1, cid, clock.uploaded);
      assert t.media == s.media + rows;
      RowsAppended(s.media, rows, n + 1);
      MessagesMentionCase(cid, 0, Draft);
      AppendCaseKeeps(s, t);
    }
  }

  lemma CaseEditKeeps(s: Store, session: Session, cid: string, form: EditForm, now: Instant)
    requires WellFormed(s) && Traceable(s)
    requires CaseEdit(s, session, cid, form, now).Success?
    ensures var t := CaseEdit(s, session, cid, form, now).value;
      WellFormed(t) && Evolves(s, t) && Traceable(t)
  {
    var t := CaseEdit(s, session, cid, form, now).value;
    var i := FindCase(s.cases, cid, Some(session.user.id)).value;
    if form.action == Some("cancel") {
      MessagesMentionCase(cid, 0, Draft);
      TraceableExtended(s, t, i);
    } else {
      TraceableKept(s, t);
    }
  }

  lemma CaseFeedbackKeeps(s: Store, session: Session, cid: string, rating: Option<int>,
                          comments: Option<string>, now: Instant)
    requires WellFormed(s) && Traceable(s)
    requires CaseFeedback(s, session, cid, rating, comments, now).Success?
    ensures var t := CaseFeedback(s, session, cid, rating, comments, now).value;
      WellFormed(t) && Evolves(s, t) && Traceable(t)
  {
    var t := CaseFeedback(s, session, cid, rating, comments, now).value;
    TraceableKept(s, t);
  }

  lemma AdminCaseReviewKeeps(s: Store, session: Session, cid: string, action: Option<string>,
                             unitId: Option<int>, now: Instant)
    requires WellFormed(s) && Traceable(s)
    requires AdminCaseReview(s, session, cid, action, unitId, now).Success?
    ensures var t := AdminCaseReview(s, session, cid, action, unitId, now).value;
      WellFormed(t) && Evolves(s, t) && Traceable(t)
  {
    if action == Some("assign") {
      AssignKeeps(s, session, cid, unitId, now);
    } else if action == Some("complete") {
      CompleteKeeps(s, session, cid, unitId, now);
    } else {
      var t := AdminCaseReview(s, session, cid, action, unitId, now).value;
      TraceableKept(s, t);
    }
  }

  /** The review handler as written keeps the invariant: its lost actions leave the store as it was. */
  lemma AdminCaseReviewAsWrittenKeeps(s: Store, session: Session, cid: string, action: Option<string>,
                                      unitId: Option<int>, now: Instant)
    requires WellFormed(s) && Traceable(s)
    ensures var r := AdminCaseReviewAsWritten(s, session, cid, action, unitId, now);
      r.Success? ==> WellFormed(r.value) && Evolves(s, r.value) && Traceable(r.value)
  {
    var r := AdminCaseReviewAsWritten(s, session, cid, action, unitId, now);
    if r.Success? {
      if action == Some("mark_fake") || action == Some("accept") {
        assert r.value == s;
      } else {
        AdminCaseReviewKeeps(s, session, cid, action, unitId, now);
      }
    }
  }

  /** The `assign` review keeps the invariant: its notification is about the assigned case. */
  lemma AssignKeeps(s: Store, session: Session, cid: string, unitId: Option<int>, now: Instant)
    requires WellFormed(s) && Traceable(s)
    requires AdminCaseReview(s, session, cid, Some("assign"), unitId, now).Success?
    ensures var t := AdminCaseReview(s, session, cid, Some("assign"), unitId, now).value;
      WellFormed(t) && Evolves(s, t) && Traceable(t)
  {
    var t := AdminCaseReview(s, session, cid, Some("assign"), unitId, now).value;
    var i := FindCase(s.cases, cid, None).value;
    MessagesMentionCase(cid, unitId.value, Completed);
    TraceableExtended(s, t, i);
  }

  /** The `complete` review keeps the invariant: its notification is about the completed case. */
  lemma CompleteKeeps(s: Store, session: Session, cid: string, unitId: Option<int>, now: Instant)
    requires WellFormed(s) && Traceable(s)
    requires AdminCaseReview(s, session, cid, Some("complete"), unitId, now).Success?
    ensures var t := AdminCaseReview(s, session, cid, Some("complete"), unitId, now).value;
      WellFormed(t) && Evolves(s, t) && Traceable(t)
  {
    var t := AdminCaseReview(s, session, cid, Some("complete"), unitId, now).value;
    var i := FindCase(s.cases, cid, None).value;
    MessagesMentionCase(cid, 0, Completed);
    TraceableExtended(s, t, i);
  }

  lemma UnitReassignKeeps(s: Store, session: Session, cid: string, unitId: Option<int>, now: Instant)
    requires WellFormed(s) && Traceable(s)
    requires UnitReassign(s, session, cid, unitId, now).Success?
    ensures var t := UnitReassign(s, session, cid, unitId, now).value;
      WellFormed(t) && Evolves(s, t) && Traceable(t)
  {
    var t := UnitReassign(s, session, cid, unitId, now).value;
    var i := FindCase(s.cases, cid, None).value;
    MessagesMentionCase(cid, unitId.value, Completed);
    TraceableExtended(s, t, i);
  }

  // ---------------------------------------------------- any call, any run

  /** Every call keeps the store well formed and traceable, and only moves it forward. */
  lemma StepKeeps(s: Store, c: Call)
    requires Feasible(c) && WellFormed(s) && Traceable(s)
    ensures WellFormed(After(s, c)) && Traceable(After(s, c)) && Evolves(s, After(s, c))
    ensures |After(s, c).notifications| <= |s.notifications| + 1
  {
    if Step(s, c).Success? {
      match c.request
      case SubmitCase(form, token, clock) => CaseNewKeeps(s, c.session, form, clock, token);
      case EditCase(cid, edit) => CaseEditKeeps(s, c.session, cid, edit, c.now);
      case RateCase(cid, rating, comments) => CaseFeedbackKeeps(s, c.session, cid, rating, comments, c.now);
      case ReviewCase(cid, action, unitId) => AdminCaseReviewAsWrittenKeeps(s, c.session, cid, action, unitId, c.now);
      case ReassignCase(cid, unitId) => UnitReassignKeeps(s, c.session, cid, unitId, c.now);
    }
  }

  /** Any sequence of calls keeps the store well formed and traceable, and only moves it forward. */
  lemma {:induction false} RunKeeps(s: Store, calls: seq<Call>)
    requires forall k :: 0 <= k < |calls| ==> Feasible(calls[k])
    requires WellFormed(s) && Traceable(s)
    ensures WellFormed(Run(s, calls)) && Traceable(Run(s, calls)) && Evolves(s, Run(s, calls))
    ensures |Run(s, calls).notifications| <= |s.notifications| + |calls|
    decreases |calls|
  {
    if |calls| > 0 {
      var s1 := After(s, calls[0]);
      StepKeeps(s, calls[0]);
      RunKeeps(s1, calls[1..]);
      EvolvesTransitive(s, s1, Run(s1, calls[1..]));
    }
  }

  // ------------------------------------------------ scenarios and gaps

  /** The empty store satisfies the invariant, so every store a run reaches from it does too. */
  lemma EmptyStoreKeeps(calls: seq<Call>)
    requires forall k :: 0 <= k < |calls| ==> Feasible(calls[k])
    ensures var t := Run(Store([], [], [], []), calls); WellFormed(t) && Traceable(t)
  {
    RunKeeps(Store([], [], [], []), calls);
  }

  /** A filed case is found at the end of the table, by identifier and by owner. */
  lemma SubmitThenFind(s: Store, owner: User, form: NewCaseForm, token: Hex4, clock: CaseClock)
    requires WellFormed(s) && Traceable(s) && clock.stamp.year >= 1000
    requires Given(form.description) && Given(form.eventType)
    requires !CaseIdTaken(s.cases, MakeCaseId(clock.stamp, token))
    ensures var r := CaseNew(s, SignedIn(owner), form, clock, token);
      && r.Success? && WellFormed(r.value) && Traceable(r.value)
      && FindCase(r.value.cases, MakeCaseId(clock.stamp, token), None) == Some(|s.cases|)
      && FindCase(r.value.cases, MakeCaseId(clock.stamp, token), Some(owner.id)) == Some(|s.cases|)
      && |r.value.notifications| == |s.notifications| + 1
      && r.value.notifications[|s.notifications|].userId == owner.id
  {
    var t := CaseNew(s, SignedIn(owner), form, clock, token).value;
    CaseNewKeeps(s, SignedIn(owner), form, clock, token);
    FindUnique(t, |s.cases|);
  }

  /** Assigning case `i` keeps the invariant, puts the case in progress at the unit, and notifies its owner once. */
  lemma AssignCase(s: Store, session: Session, i: nat, unit: int, now: Instant)
    requires WellFormed(s) && Traceable(s) && i < |s.cases| && IsAdmin(session) && FitsInteger(unit)
    ensures var r := AdminCaseReviewAsWritten(s, session, s.cases[i].caseId, Some("assign"), Some(unit), now);
      && r.Success? && WellFormed(r.value) && Traceable(r.value)
      && |r.value.cases| == |s.cases|
      && r.value.cases[i].caseId == s.cases[i].caseId && r.value.cases[i].userId == s.cases[i].userId
      && r.value.cases[i].status == InProgress && r.value.cases[i].assignedUnitId == Some(unit)
      && |r.value.notifications| == |s.notifications| + 1
      && r.value.notifications[..|s.notifications|] == s.notifications
      && r.value.notifications[|s.notifications|].userId == s.cases[i].userId
  {
    FindUnique(s, i);
    AdminCaseReviewKeeps(s, session, s.cases[i].caseId, Some("assign"), Some(unit), now);
  }

  /** Completing case `i` keeps the invariant and the assignment, closes the case, and notifies its owner once. */
  lemma CompleteCase(s: Store, session: Session, i: nat, now: Instant)
    requires WellFormed(s) && Traceable(s) && i < |s.cases| && IsAdmin(session)
    ensures var r := AdminCaseReviewAsWritten(s, session, s.cases[i].caseId, Some("complete"), None, now);
      && r.Success? && WellFormed(r.value) && Traceable(r.value)
      && |r.value.cases| == |s.cases|
      && r.value.cases[i].caseId == s.cases[i].caseId && r.value.cases[i].userId == s.cases[i].userId
      && r.value.cases[i].status == Completed
      && r.value.cases[i].assignedUnitId == s.cases[i].assignedUnitId
      && |r.value.notifications| == |s.notifications| + 1
      && r.value.notifications[..|s.notifications|] == s.notifications
      && r.value.notifications[|s.notifications|].userId == s.cases[i].userId
  {
    FindUnique(s, i);
    AdminCaseReviewKeeps(s, session, s.cases[i].caseId, Some("complete"), None, now);
  }

  /** Assigning case `n` and then completing it leaves it completed at the unit, with two notifications to its owner. */
  lemma AssignThenComplete(s: Store, session: Session, n: nat, unit: int, now: Instant)
    requires WellFormed(s) && Traceable(s) && n < |s.cases| && IsAdmin(session) && FitsInteger(unit)
    ensures
      var cid := s.cases[n].caseId;
      var r2 := AdminCaseReviewAsWritten(s, session, cid, Some("assign"), Some(unit), now);
      && r2.Success?
      && var r3 := AdminCaseReviewAsWritten(r2.value, session, cid, Some("complete"), None, now);
      && r3.Success?
      && var t := r3.value;
      && |t.cases| == |s.cases|
      && t.cases[n].status == Completed
      && t.cases[n].assignedUnitId == Some(unit)
      && t.cases[n].userId == s.cases[n].userId
      && |t.notifications| == |s.notifications| + 2
      && (forall k :: 0 <= k < |s.notifications| ==> t.notifications[k] == s.notifications[k])
      && (forall k :: |s.notifications| <= k < |t.notifications| ==> t.notifications[k].userId == s.cases[n].userId)
  {
    var cid := s.cases[n].caseId;
    var m := |s.notifications|;
    var r2 := AdminCaseReviewAsWritten(s, session, cid, Some("assign"), Some(unit), now);
    AssignCase(s, session, n, unit, now);
    var s2 := r2.value;
    CompleteCase(s2, session, n, now);
    var t := AdminCaseReviewAsWritten(s2, session, cid, Some("complete"), None, now).value;
    forall k | 0 <= k < m + 1
      ensures t.notifications[k] == s2.notifications[k]
    {
      assert t.notifications[k] == t.notifications[..m + 1][k];
    }
    forall k | m <= k < |t.notifications|
      ensures t.notifications[k].userId == s.cases[n].userId
    {
      assert k == m || k == m + 1;
    }
  }

  /**
   A reporter files a case, and an administrator assigns it and then
   completes it: the case ends completed at the unit, and the reporter has
   received exactly three notifications.
   */
  lemma {:induction false} ReportAssignComplete(s: Store, owner: User, admin: User, form: NewCaseForm,
                                                token: Hex4, unit: int, clock: CaseClock, now: Instant)
    requires WellFormed(s) && Traceable(s) && clock.stamp.year >= 1000
    requires admin.role == RoleName(AdminRole) && FitsInteger(unit)
    requires Given(form.description) && Given(form.eventType)
    requires !CaseIdTaken(s.cases, MakeCaseId(clock.stamp, token))
    ensures
      var cid := MakeCaseId(clock.stamp, token);
      var r1 := CaseNew(s, SignedIn(owner), form, clock, token);
      && r1.Success?
      && var r2 := AdminCaseReviewAsWritten(r1.value, SignedIn(admin), cid, Some("assign"), Some(unit), now);
      && r2.Success?
      && var r3 := AdminCaseReviewAsWritten(r2.value, SignedIn(admin), cid, Some("complete"), None, now);
      && r3.Success?
      && var t := r3.value;
      && |s.cases| < |t.cases|
      && t.cases[|s.cases|].status == Completed
      && t.cases[|s.cases|].assignedUnitId == Some(unit)
      && t.cases[|s.cases|].userId == owner.id
      && |t.notifications| == |s.notifications| + 3
      && forall k :: |s.notifications| <= k < |t.notifications| ==> t.notifications[k].userId == owner.id
  {
    var n := |s.cases|;
    var m := |s.notifications|;
    SubmitThenFind(s, owner, form, token, clock);
    var cid := MakeCaseId(clock.stamp, token);
    var s1 := CaseNew(s, SignedIn(owner), form, clock, token).value;
    assert s1.cases[n].caseId == cid && s1.cases[n].userId == owner.id;
    AssignThenComplete(s1, SignedIn(admin), n, unit, now);
    var t := AdminCaseReviewAsWritten(AdminCaseReviewAsWritten(s1, SignedIn(admin), cid, Some("assign"), Some(unit), now).value,
                             SignedIn(admin), cid, Some("complete"), None, now).value;
    forall k | m <= k < |t.notifications|
      ensures t.notifications[k].userId == owner.id
    {
      if k == m {
        assert t.notifications[k] == s1.notifications[m];
      }
    }
  }

  /** The lookup only depends on which rows match: tables that agree on that give the same answer. */
  lemma {:induction false} FindSameMatches(a: seq<Case>, b: seq<Case>, cid: string, owner: Option<nat>)
    requires |a| == |b|
    requires forall j :: 0 <= j < |a| ==> (Matches(a[j], cid, owner) <==> Matches(b[j], cid, owner))
    ensures FindCase(a, cid, owner) == FindCase(b, cid, owner)
    decreases |a|
  {
    if |a| > 0 && !Matches(a[0], cid, owner) {
      assert forall j :: 0 <= j < |a| - 1 ==> a[1..][j] == a[j + 1] && b[1..][j] == b[j + 1];
      FindSameMatches(a[1..], b[1..], cid, owner);
    }
  }

  /** A field edit is idempotent: sending the same form again changes nothing more. */
  lemma EditTwice(s: Store, session: Session, cid: string, form: EditForm, now: Instant, later: Instant)
    requires form.action != Some("cancel")
    requires CaseEdit(s, session, cid, form, now).Success?
    ensures var t := CaseEdit(s, session, cid, form, now).value;
      CaseEdit(t, session, cid, form, later) == Success(t)
  {
    var t := CaseEdit(s, session, cid, form, now).value;
    var owner := Some(session.user.id);
    var i := FindCase(s.cases, cid, owner).value;
    assert t.cases == s.cases[i := MergeFields(s.cases[i], form)];
    FindSameMatches(s.cases, t.cases, cid, owner);
    assert MergeFields(t.cases[i], form) == t.cases[i];
    assert t.cases[i := t.cases[i]] == t.cases;
  }

  /** A cancelled case is a draft again, so its owner may edit it afterwards. */
  lemma CancelThenEdit(s: Store, session: Session, cid: string, cancel: EditForm, edit: EditForm,
                       now: Instant, later: Instant)
    requires cancel.action == Some("cancel")
    requires CaseEdit(s, session, cid, cancel, now).Success?
    ensures var t := CaseEdit(s, session, cid, cancel, now).value;
      var i := FindCase(s.cases, cid, Some(session.user.id)).value;
      && t.cases[i].status == Draft
      && CaseEdit(t, session, cid, edit, later).Success?
  {
    var t := CaseEdit(s, session, cid, cancel, now).value;
    var owner := Some(session.user.id);
    var i := FindCase(s.cases, cid, owner).value;
    FindSameMatches(s.cases, t.cases, cid, owner);
  }

  /**
   After a unit hands a case to unit `u`, the case is on the dashboard of
   the unit account whose user id is `u`, and on no other unit account's.
   */
  lemma ReassignShowsOnDashboard(s: Store, session: Session, cid: string, u: nat, viewer: User, now: Instant)
    requires IsUnit(session) && FindCase(s.cases, cid, None).Some?
    requires viewer.role == RoleName(UnitRole) && FitsInteger(u)
    ensures var t := UnitReassign(s, session, cid, Some(u), now).value;
      var i := FindCase(s.cases, cid, None).value;
      t.cases[i] in UnitDashboard(t, SignedIn(viewer)).value <==> viewer.id == u
  {
    var t := UnitReassign(s, session, cid, Some(u), now).value;
    var i := FindCase(s.cases, cid, None).value;
    assert t.cases[i] in t.cases;
  }

  /** The owner may rate a case again and again: every in-range rating is stored, whatever the status. */
  lemma RatingTwice(s: Store, owner: User, cid: string, first: int, second: int,
                    comments: Option<string>, now: Instant)
    requires FindCase(s.cases, cid, Some(owner.id)).Some?
    requires 1 <= first <= 5 && 1 <= second <= 5
    ensures var r1 := CaseFeedback(s, SignedIn(owner), cid, Some(first), comments, now);
      && r1.Success?
      && var r2 := CaseFeedback(r1.value, SignedIn(owner), cid, Some(second), comments, now);
      && r2.Success?
      && |r2.value.feedback| == |s.feedback| + 2
      && r2.value.feedback[|s.feedback|].caseRef == r2.value.feedback[|s.feedback| + 1].caseRef
  {
  }

  /** An administrator can complete a case from any status, assigned or not. */
  lemma CompleteFromAnyStatus(s: Store, session: Session, cid: string, now: Instant)
    requires IsAdmin(session) && FindCase(s.cases, cid, None).Some?
    ensures var i := FindCase(s.cases, cid, None).value;
      var r := AdminCaseReviewAsWritten(s, session, cid, Some("complete"), None, now);
      && r.Success?
      && r.value.cases[i].status == Completed
      && r.value.cases[i].assignedUnitId == s.cases[i].assignedUnitId
  {
  }

  /**
   Neither handler checks the status before `accept`: the committed one
   moves a completed case back to accepted, while the handler as written
   loses the change and the case stays completed.
   */
  lemma AcceptOnCompleted(s: Store, session: Session, cid: string, now: Instant)
    requires IsAdmin(session) && FindCase(s.cases, cid, None).Some?
    requires s.cases[FindCase(s.cases, cid, None).value].status == Completed
    ensures var i := FindCase(s.cases, cid, None).value;
      var r := AdminCaseReview(s, session, cid, Some("accept"), None, now);
      r.Success? && r.value.cases[i].status == Accepted
    ensures var i := FindCase(s.cases, cid, None).value;
      var w := AdminCaseReviewAsWritten(s, session, cid, Some("accept"), None, now);
      w.Success? && w.value.cases[i].status == Completed
  {
  }
}

=== FILE: models.dfy ===
/**
 The relational schema of the platform: roles, case statuses, and one record
 type per table, with the column defaults a constructor fills in and the
 unique / not-null constraints the database enforces at commit.

 Primary keys are positional: the row at index `i` of a table has id `i + 1`
 (rows are never deleted). Columns the handlers never write (timestamps with
 a `utcnow` default) take the instant as a parameter.
 */
module Models {
  import opened Common
  import opened Clock

  // ---------------------------------------------------------------- roles

  /** The three role names a user row may carry. */
  datatype Role = UserRole | AdminRole | UnitRole

  function RoleName(r: Role): string {
    match r
    case UserRole => "user"
    case AdminRole => "admin"
    case UnitRole => "unit"
  }

  function ParseRole(s: string): (r: Option<Role>)
    ensures r.Some? ==> RoleName(r.value) == s
  {
    if s == "user" then Some(UserRole)
    else if s == "admin" then Some(AdminRole)
    else if s == "unit" then Some(UnitRole)
    else None
  }

  /** Every role name reads back as its role, so the three names are distinct. */
  lemma RoleNamesRoundTrip(r: Role)
    ensures ParseRole(RoleName(r)) == Some(r)
    ensures forall q: Role :: RoleName(q) == RoleName(r) ==> q == r
  {
    forall q: Role | RoleName(q) == RoleName(r)
      ensures q == r
    {
      assert ParseRole(RoleName(q)) == Some(q);
    }
  }

  // ------------------------------------------------------------- statuses

  /** The five statuses of a case row. */
  datatype CaseStatus = Draft | Submitted | Accepted | InProgress | Completed

  const AllStatuses: seq<CaseStatus> := [Draft, Submitted, Accepted, InProgress, Completed]

  function StatusName(s: CaseStatus): string {
    match s
    case Draft => "draft"
    case Submitted => "submitted"
    case Accepted => "accepted"
    case InProgress => "in_progress"
    case Completed => "completed"
  }

  function ParseStatus(s: string): (r: Option<CaseStatus>)
    ensures r.Some? ==> StatusName(r.value) == s
  {
    if s == "draft" then Some(Draft)
    else if s == "submitted" then Some(Submitted)
    else if s == "accepted" then Some(Accepted)
    else if s == "in_progress" then Some(InProgress)
    else if s == "completed" then Some(Completed)
    else None
  }

  /** There are exactly five statuses, and their names are pairwise distinct. */
  lemma StatusesExactlyFive()
    ensures |AllStatuses| == 5
    ensures forall s: CaseStatus :: s in AllStatuses
    ensures forall i, j :: 0 <= i < j < |AllStatuses| ==> StatusName(AllStatuses[i]) != StatusName(AllStatuses[j])
  {
    forall s: CaseStatus
      ensures s in AllStatuses
    {
      match s
      case Draft => assert AllStatuses[0] == s;
      case Submitted => assert AllStatuses[1] == s;
      case Accepted => assert AllStatuses[2] == s;
      case InProgress => assert AllStatuses[3] == s;
      case Completed => assert AllStatuses[4] == s;
    }
    forall i, j | 0 <= i < j < |AllStatuses|
      ensures StatusName(AllStatuses[i]) != StatusName(AllStatuses[j])
    {
      StatusNameRoundTrip(AllStatuses[i]);
    }
  }

  lemma StatusNameRoundTrip(s: CaseStatus)
    ensures ParseStatus(StatusName(s)) == Some(s)
    ensures forall q: CaseStatus :: StatusName(q) == StatusName(s) ==> q == s
  {
    forall q: CaseStatus | StatusName(q) == StatusName(s)
      ensures q == s
    {
      assert ParseStatus(StatusName(q)) == Some(q);
    }
  }

  // ---------------------------------------------------------------- users

  datatype User = User(
    id: nat,
    accountId: string,
    username: string,
    email: Option<string>,
    passwordHash: string,
    role: string,
    createdAt: Instant,
    isActive: bool)

  /** A user row built with only its required columns: role and activity take their defaults. */
  function NewUser(id: nat, accountId: string, username: string, email: Option<string>,
                   passwordHash: string, now: Instant): (u: User)
    ensures u.role == RoleName(UserRole) && u.isActive
    ensures u.username == username && u.accountId == accountId && u.email == email
  {
    User(id, accountId, username, email, passwordHash, "user", now, true)
  }

  /** `username`, `account_id` and `email` are unique; SQL lets several rows leave `email` NULL. */
  predicate UsersUnique(users: seq<User>) {
    forall i, j :: 0 <= i < j < |users| ==>
      && users[i].username != users[j].username
      && users[i].accountId != users[j].accountId
      && (users[i].email.Some? ==> users[i].email != users[j].email)
  }

  predicate Clashes(users: seq<User>, u: User) {
    exists i :: 0 <= i < |users| &&
      (users[i].username == u.username || users[i].accountId == u.accountId
       || (u.email.Some? && users[i].email == u.email))
  }

  /** Committing a new user row: the unique constraints reject a clash. */
  function InsertUser(users: seq<User>, u: User): (r: Result<seq<User>>)
    requires UsersUnique(users)
    ensures r.Failure? <==> Clashes(users, u)
    ensures r.Failure? ==> r.error == IntegrityError
    ensures r.Success? ==> r.value == users + [u] && UsersUnique(r.value)
  {
    if Clashes(users, u) then Failure(IntegrityError) else Success(users + [u])
  }

  // ---------------------------------------------------------------- units

  datatype Unit = Unit(id: nat, unitName: string, isActive: bool)

  predicate UnitNamesUnique(units: seq<Unit>) {
    forall i, j :: 0 <= i < j < |units| ==> units[i].unitName != units[j].unitName
  }

  predicate UnitNameTaken(units: seq<Unit>, name: string) {
    exists i :: 0 <= i < |units| && units[i].unitName == name
  }

  /** Committing `Unit(unit_name=name)`: the name is not-null and unique, the row starts active. */
  function InsertUnit(units: seq<Unit>, name: Option<string>): (r: Result<seq<Unit>>)
    requires UnitNamesUnique(units)
    ensures r.Success? <==> name.Some? && !UnitNameTaken(units, name.value)
    ensures r.Failure? ==> r.error == IntegrityError
    ensures r.Success? ==> && |r.value| == |units| + 1 && r.value[..|units|] == units
                           && r.value[|units|].unitName == name.value
                           && r.value[|units|].isActive
                           && UnitNamesUnique(r.value)
  {
    match name
    case None => Failure(IntegrityError)
    case Some(n) =>
      if UnitNameTaken(units, n) then Failure(IntegrityError)
      else Success(units + [Unit(|units| + 1, n, true)])
  }

  // ---------------------------------------------------------------- cases

  /** A value a library parser (`float`, `datetime.fromisoformat`) reads from the given text. */
  datatype Parsed = Parsed(text: string)

  /** Width of the `case_id` column. */
  const CaseIdWidth: nat := 20

  datatype Case = Case(
    id: nat,
    caseId: string,
    description: string,
    locationText: Option<string>,
    latitude: Option<Parsed>,
    longitude: Option<Parsed>,
    incidentTime: Option<Parsed>,
    reportTime: Instant,
    status: CaseStatus,
    eventType: Option<string>,
    attributeId: Option<int>,
    userId: nat,
    assignedUnitId: Option<int>,
    isFake: bool)

  /** A case row built with only its not-null columns: every other column takes its default. */
  function NewCase(id: nat, caseId: string, description: string, userId: nat, now: Instant): (c: Case)
    ensures c.status == Draft && !c.isFake && c.assignedUnitId == None
    ensures c.caseId == caseId && c.description == description && c.userId == userId
    ensures c.reportTime == now
  {
    Case(id, caseId, description, None, None, None, None, now, Draft, None, None, userId, None, false)
  }

  // ------------------------------------------------------- attached rows

  datatype MediaFile = MediaFile(caseRef: nat, filePath: string, fileType: string, uploadTime: Instant)

  datatype Feedback = Feedback(caseRef: nat, rating: Option<int>, comments: Option<string>, submissionTime: Instant)

  datatype Notification = Notification(userId: nat, message: string, timestamp: Instant, kind: string)

  datatype TaskAssignment = TaskAssignment(
    assignmentId: Option<string>,
    caseRef: nat,
    creationTime: Instant,
    status: string,
    assignedPersonnel: Option<string>,
    notes: Option<string>)

  /** A task assignment built for a case: it starts in status `"assigned"`. */
  function NewTaskAssignment(caseRef: nat, now: Instant): (t: TaskAssignment)
    ensures t.status == "assigned" && t.caseRef == caseRef
    ensures t.assignmentId == None && t.assignedPersonnel == None && t.notes == None
  {
    TaskAssignment(None, caseRef, now, "assigned", None, None)
  }
}

=== FILE: text.dfy ===
/**
 Character and string helpers: decimal digits (fixed-width and minimal),
 ASCII lower-casing, and prefix/suffix tests.
 */
module Text {

  predicate IsDigit(c: char) {
    '0' <= c <= '9'
  }

  predicate AllDigits(s: string) {
    forall i :: 0 <= i < |s| ==> IsDigit(s[i])
  }

  function DigitValue(c: char): nat
    requires IsDigit(c)
  {
    c as int - '0' as int
  }

  function DigitChar(d: nat): (c: char)
    requires d < 10
    ensures IsDigit(c) && DigitValue(c) == d
  {
    ('0' as int + d) as char
  }

  /** The number a string of decimal digits denotes, most significant first. */
  function ValueOf(s: string): nat
    requires AllDigits(s)
  {
    if |s| == 0 then 0 else ValueOf(s[..|s| - 1]) * 10 + DigitValue(s[|s| - 1])
  }

  function Pow10(w: nat): (p: nat)
    ensures p >= 1
  {
    if w == 0 then 1 else 10 * Pow10(w - 1)
  }

  /** `n` written with exactly `w` digits, zero-padded on the left (`%0wd`). */
  function Padded(n: nat, w: nat): (s: string)
    requires n < Pow10(w)
    ensures |s| == w && AllDigits(s)
    ensures ValueOf(s) == n
  {
    if w == 0 then "" else
      var s := Padded(n / 10, w - 1) + [DigitChar(n % 10)];
      assert s[..|s| - 1] == Padded(n / 10, w - 1);
      s
  }

  /** A digit string never denotes a number of more digits than it has. */
  lemma {:induction false} ValueOfBound(s: string)
    requires AllDigits(s)
    ensures ValueOf(s) < Pow10(|s|)
  {
    if |s| > 0 {
      ValueOfBound(s[..|s| - 1]);
    }
  }

  /** Reading a digit string back at its own width gives the same string. */
  lemma {:induction false} PaddedValueOf(s: string)
    requires AllDigits(s)
    ensures ValueOf(s) < Pow10(|s|)
    ensures Padded(ValueOf(s), |s|) == s
  {
    ValueOfBound(s);
    if |s| > 0 {
      var init := s[..|s| - 1];
      PaddedValueOf(init);
      var n := ValueOf(s);
      assert n / 10 == ValueOf(init);
      assert n % 10 == DigitValue(s[|s| - 1]);
      assert s == init + [s[|s| - 1]];
    }
  }

  /** `n` in decimal without leading zeros (Python's `str(n)` for `n >= 0`). */
  function Decimal(n: nat): (s: string)
    ensures |s| >= 1 && AllDigits(s)
    ensures ValueOf(s) == n
    ensures |s| > 1 ==> s[0] != '0'
    decreases n
  {
    if n < 10 then [DigitChar(n)] else
      var s := Decimal(n / 10) + [DigitChar(n % 10)];
      assert s[..|s| - 1] == Decimal(n / 10);
      s
  }

  /** Python's `str(i)` for any integer. */
  function IntText(i: int): (s: string)
    ensures |s| >= 1
    ensures i >= 0 <==> s[0] != '-'
  {
    if i < 0 then "-" + Decimal(-i) else Decimal(i)
  }

  /** ASCII lower-casing of one character. */
  function Lower(c: char): (d: char)
    ensures !('A' <= d <= 'Z')
    ensures 'a' <= c <= 'z' || c !in "ABCDEFGHIJKLMNOPQRSTUVWXYZ" ==> d == c
  {
    if 'A' <= c <= 'Z' then (c as int + 32) as char else c
  }

  /** `s.lower()` restricted to ASCII letters. */
  function LowerStr(s: string): (r: string)
    ensures |r| == |s|
    ensures forall i :: 0 <= i < |s| ==> r[i] == Lower(s[i])
  {
    if |s| == 0 then "" else [Lower(s[0])] + LowerStr(s[1..])
  }

  predicate StartsWith(s: string, prefix: string) {
    |prefix| <= |s| && s[..|prefix|] == prefix
  }

  predicate EndsWith(s: string, suffix: string) {
    |suffix| <= |s| && s[|s| - |suffix|..] == suffix
  }

  /** The `n` characters of `hay` starting at `i`. */
  function Window(hay: string, i: nat, n: nat): string
    requires i + n <= |hay|
  {
    hay[i..i + n]
  }

  /** `needle` occurs somewhere in `hay`. */
  predicate Mentions(hay: string, needle: string) {
    exists i: nat :: i + |needle| <= |hay| && Window(hay, i, |needle|) == needle
  }

  /** A string placed between two others is mentioned by the result. */
  lemma MentionsMiddle(pre: string, needle: string, post: string)
    ensures Mentions(pre + needle + post, needle)
  {
    var hay := pre + needle + post;
    assert Window(hay, |pre|, |needle|) == needle;
  }

  /** A prefix of a string is mentioned by it. */
  lemma MentionsStart(hay: string, needle: string)
    requires StartsWith(hay, needle)
    ensures Mentions(hay, needle)
  {
    assert Window(hay, 0, |needle|) == needle;
  }

  /** Appending to a string keeps its prefixes. */
  lemma StartsWithAppend(x: string, y: string, prefix: string)
    requires StartsWith(x, prefix)
    ensures StartsWith(x + y, prefix)
  {
    assert (x + y)[..|prefix|] == x[..|prefix|];
  }
}

=== FILE: uploads.dfy ===
/**
 Upload filtering for case attachments: which file names are accepted, and
 whether an accepted file is recorded as an image or a video.
 */
module Uploads {
  import opened Common
  import opened Text

  const AllowedExtensions: set<string> := {"png", "jpg", "jpeg", "gif", "mp4", "mov"}

  /** The extensions recorded as video. */
  const VideoExtensions: set<string> := {"mp4", "mov"}

  /** No `'.'` occurs in `s` after index `i`. */
  predicate NoDotAfter(s: string, i: int) {
    forall j :: 0 <= j < |s| && i < j ==> s[j] != '.'
  }

  /** Index of the last `'.'` in `s`, if there is one. */
  function LastDot(s: string): (r: Option<nat>)
    ensures r.Some? ==> r.value < |s| && s[r.value] == '.' && NoDotAfter(s, r.value)
    ensures r.None? ==> NoDotAfter(s, -1)
  {
    if |s| == 0 then None
    else if s[|s| - 1] == '.' then Some(|s| - 1)
    else LastDot(s[..|s| - 1])
  }

  /** `name.rsplit(".", 1)[1]` when `"." in name`: the text after the last dot. */
  function Extension(name: string): (r: Option<string>)
    ensures r.Some? <==> exists i :: 0 <= i < |name| && name[i] == '.'
  {
    match LastDot(name)
    case None => None
    case Some(i) => Some(name[i + 1..])
  }

  /** `allowed_file`: the name has a dot and its lower-cased extension is allowed. */
  predicate AllowedFile(name: string) {
    var e := Extension(name);
    e.Some? && LowerStr(e.value) in AllowedExtensions
  }

  /** The dot at `i` is the last one, and the lower-cased text after it is an allowed extension. */
  predicate AllowedDot(name: string, i: int) {
    0 <= i < |name| && name[i] == '.' && NoDotAfter(name, i)
    && LowerStr(name[i + 1..]) in AllowedExtensions
  }

  /** `allowed_file` holds exactly when some dot, with no dot after it, is followed by an allowed extension. */
  lemma AllowedFileIff(name: string)
    ensures AllowedFile(name) <==> exists i :: AllowedDot(name, i)
  {
    if AllowedFile(name) {
      var k := LastDot(name).value;
      assert AllowedDot(name, k) by {
        assert Extension(name).value == name[k + 1..];
      }
    } else {
      forall i | 0 <= i < |name|
        ensures !AllowedDot(name, i)
      {
        if AllowedDot(name, i) {
          LastDotUnique(name, i);
          assert false;
        }
      }
    }
  }

  /** A dot with no dot after it is the last dot. */
  lemma LastDotUnique(s: string, i: nat)
    requires i < |s| && s[i] == '.' && NoDotAfter(s, i)
    ensures LastDot(s) == Some(i)
  {
    var r := LastDot(s);
    if r.Some? && r.value != i {
      assert false;
    }
  }

  datatype MediaKind = Image | Video

  /** The `file_type` column value. */
  function KindName(k: MediaKind): string {
    match k
    case Image => "image"
    case Video => "video"
  }

  /** Every kind is stored as `image` or `video`. */
  lemma KindNames(k: MediaKind)
    ensures KindName(k) in {"image", "video"}
  {
    match k
    case Image =>
    case Video =>
  }

  /** The stored type: `"video"` when the lower-cased name ends in `mp4` or `mov`, else `"image"`. */
  function KindOf(name: string): MediaKind {
    var l := LowerStr(name);
    if EndsWith(l, "mp4") || EndsWith(l, "mov") then Video else Image
  }

  /** Lower-casing commutes with taking a suffix. */
  lemma LowerSuffix(s: string, k: nat)
    requires k <= |s|
    ensures LowerStr(s[k..]) == LowerStr(s)[k..]
  {
  }

  /** A suffix test on a string agrees with the same test on any longer suffix of it. */
  lemma EndsWithThroughSuffix(l: string, k: nat, x: string)
    requires k <= |l| && |x| <= |l| - k
    ensures EndsWith(l, x) <==> EndsWith(l[k..], x)
  {
    assert l[k..][|l[k..]| - |x|..] == l[|l| - |x|..];
  }

  /** For an accepted file the suffix test agrees with the extension: video exactly for `mp4` and `mov`. */
  lemma KindOfAllowed(name: string)
    ensures AllowedFile(name) ==>
      (KindOf(name) == Video <==> LowerStr(Extension(name).value) in VideoExtensions)
  {
    if AllowedFile(name) {
      var i := LastDot(name).value;
      var l := LowerStr(name);
      var e := LowerStr(name[i + 1..]);
      assert Extension(name).value == name[i + 1..];
      LowerSuffix(name, i + 1);
      assert e == l[i + 1..];
      VideoByExtension(e);
      EndsWithThroughSuffix(l, i + 1, "mp4");
      EndsWithThroughSuffix(l, i + 1, "mov");
    }
  }

  /** Every allowed extension has at least three letters, and exactly the video ones end in `mp4` or `mov`. */
  lemma VideoByExtension(e: string)
    requires e in AllowedExtensions
    ensures |e| >= 3
    ensures EndsWith(e, "mp4") || EndsWith(e, "mov") <==> e in VideoExtensions
  {
    if e == "jpeg" {
      assert e[1..] == "peg";
    }
  }
}
